=== FILE: README.md ===
# scy-zookeeper registry core, modelled in Dafny

This project models the bookkeeping that the `scy-zookeeper` library layers over
ZooKeeper. The model has seven modules:

- **`ZkClient`** is the store. It is a map from absolute node path to payload and
  create mode. The client is built with a Curator `namespace` (the application
  name), so every path in the model is relative to it: `/scy-rpc/...` is the
  server node `/{namespace}/scy-rpc/...`. It models `createNode`
  (create-if-absent, never an update), `createNodeWithData` (an upsert),
  `checkExists`, `doGetContent`, `getChildren` and `delete`, which removes a
  whole subtree. Missing parents are created as
  empty container nodes. A path is valid when ZooKeeper's `PathUtils.validatePath`
  accepts it: it starts with `/`, does not end with `/`, has no empty, `.` or `..`
  segment, and has no NUL, control character (U+0001–U+001F, U+007F–U+009F) or
  character in U+D800–U+F8FF or U+FFF0–U+FFFF (a character beyond U+FFFF is a
  surrogate pair in Java, so it falls in that range too). For a path ZooKeeper
  rejects, Curator throws, `ZkClient` catches the exception and returns its
  default (`null`, `false`, `""` or an empty list), and the model returns the
  same default. ZooKeeper also refuses to create a node below an ephemeral node
  (`NoChildrenForEphemerals`). Creating such a node, or one of its missing
  parents, fails in the model too. The module also models the
  listener-to-cache table that `addListener` and `removeListener` maintain.
- **`RegisterCenter`** is the RPC registry. `registryData` maps each service key to
  the addresses this process wants registered. `discoveryData` caches the enabled
  addresses of each service key. Nodes live at
  `/scy-rpc/{env}/{serviceKey}/{address}`. The module models:
  - the path builders and the event-path parser;
  - `listener`, `refreshDiscoveryData`, both `registry` methods,
    `refreshRegistryData`, `remove` and both `discovery` methods;
  - the 60-second task as `PeriodicTick`: `refreshDiscoveryData(null)` and then
    `refreshRegistryData()`;
  - a watch event as `OnEvent`: `CuratorListener.event` feeding the `DataListener`
    that `init` installs.
- **`MqRegister`** records topic-to-group membership under
  `/scy-mq/{env}/{topic}/{group}`.
- **`SystemTimeMonitor`** detects the clock going backwards. It keeps its state in
  `/snowflake/forever/{ip}`.
- **`CuratorListener`** normalises a cache event into one `DataListener` callback.
- **`JavaText`** holds the parts of `String.split`, `String.valueOf(long)` and
  `Long.parseLong` that the code relies on.
- **`Optional`** is Java's `null`-or-value, made explicit.

Java collections that the code walks in an unspecified order (a `HashSet` or other
`Set` from the caller, a `ConcurrentHashMap`) are walked in the model by methods
that pick the next element with `:|`. Every property proved about them therefore
holds for every order. A `TreeSet` is different: Java walks it in ascending
`String.compareTo` order. The one place where that order matters is the private
`registry(serviceKey, addressSet)`, which creates the address nodes of one key in
that order (RegisterCenter.java:188). `RegisterCenter.Registry` and the operations
built on it still walk all nodes of a batch in any order, which over-approximates
Java: it allows outcomes the sorted walk cannot reach. One key's sorted walk is
modelled separately as `RegisterCenter.RegistryOfKeyInOrder`, and
`RegisterCenter.AscendingWalkCreatesNothingBelow` proves what the order decides.

Three things are parameters rather than code:

- The JSON decoding of an `AddressDataBO` payload is `enableOf: string ->
  Option<bool>`. Only the `registry` scenario assumes that the payload `registry`
  writes, `{"enable":true}`, decodes to `Some(true)`.
- The clock is the argument `now`.
- The host address is the monitor's `ip` field.

Behaviour of the code that the model keeps on purpose:

- `refreshDiscoveryData` returns early for a key whose service node has no
  children, or whose children are all disabled. The old cache entry is left in
  place, so stale addresses survive. A natural reading of the operation is that
  the entry always becomes the current enabled set. The model follows the code
  (`RegisterCenter.StaleEntrySurvivesRefresh`).
- `remove` does not touch `registryData`, so the next `refreshRegistryData`
  re-creates the node (`RegisterCenter.RemoveThenReassert`).
- `getRegisterCenterData` never checks that the path starts with the environment
  path. It only skips that many characters. The watched subtree is the
  environment path, so only paths below it reach the parser in practice.
- `CuratorCacheListener.Type` has exactly three values, so the `default` branch of
  `CuratorListener.event` cannot be reached. `EventType` has the same three
  values.
- `MqRegister.registry` is private. Its only caller is `refreshRegistryData`, which
  passes each recorded entry's own topic and group, so its `putIfAbsent` never
  adds or changes an entry (`MqRegister.RefreshRegistryData` keeps
  `registryData` unchanged). Entries come from outside the class, which carries
  Lombok's `@Getter` and `@Setter` (MqRegister.java:27-28): through the generated
  setter, or by a `put` into the live `ConcurrentMap` that the generated getter
  returns. The first-group-wins rule of `putIfAbsent` is still proved for
  arbitrary runs of `registry`, but the program never exercises it with a
  different group.
- `SystemTimeMonitor.lastUpdateTime` starts at 0, not at the time stored in the
  node. The first upload after `init` is therefore not compared with the stored
  time (`SystemTimeMonitor.FirstUploadIgnoresStoredTime`).

## Model

| member | source | states |
|---|---|---|
| `ZkClient.CreateNode` | src/main/java/com/scy/zookeeper/ZkClient.java:59-75 | returns the path exactly when the path is valid, absent and not below an ephemeral node; the node then holds the given data and mode and all its ancestors exist; otherwise `null` and the store is unchanged; no existing node ever changes, and every new node other than the path is an empty container parent |
| `ZkClient.CreateNodeWithData` | src/main/java/com/scy/zookeeper/ZkClient.java:77-90 | `null` and no change for a malformed path, or for an absent path below an ephemeral node; otherwise the node holds the new data, keeps its mode if it existed and takes the given mode if not; other nodes are unchanged and new ones lie on the path to it |
| `ZkClient.CheckExists` | src/main/java/com/scy/zookeeper/ZkClient.java:92-106 | in a well-formed store, true exactly when a node lives at the path |
| `ZkClient.DoGetContent` | src/main/java/com/scy/zookeeper/ZkClient.java:108-122 | the stored payload when the node exists, `""` when it does not |
| `ZkClient.GetChildren` | src/main/java/com/scy/zookeeper/ZkClient.java:124-137 | a name is listed exactly when the parent exists and `parent/name` is a node with a one-segment name; empty when the parent is absent |
| `ZkClient.Delete` | src/main/java/com/scy/zookeeper/ZkClient.java:139-155 | true exactly when the node exists; then the node and everything below it are gone and all other nodes are unchanged; false leaves the store unchanged |
| `ZkClient.ChildPathIsChild` | src/main/java/com/scy/zookeeper/ZkClient.java:59-75 | appending `"/" + name` to a valid path gives its direct child, and that child is a valid path exactly when the name is one ZooKeeper accepts (non-empty, no `/`, not `.` or `..`, no forbidden character) |
| `ZkClient.TopLevelPath` | src/main/java/com/scy/zookeeper/ZkClient.java:59-75 | `"/" + name` is a valid path exactly when the name is one ZooKeeper accepts |
| `ZkClient.CreateNodePreservesWellFormed` | src/main/java/com/scy/zookeeper/ZkClient.java:62-67 | creating with missing parents keeps the namespace a tree |
| `ZkClient.CreateNodeWithDataPreservesWellFormed` | src/main/java/com/scy/zookeeper/ZkClient.java:80-85 | the upsert keeps the namespace a tree |
| `ZkClient.InsertPreservesWellFormed` | src/main/java/com/scy/zookeeper/ZkClient.java:65 | adding a node with its container parents keeps every node's ancestors present |
| `ZkClient.DeletePreservesWellFormed` | src/main/java/com/scy/zookeeper/ZkClient.java:144-147 | deleting a whole subtree never leaves a node without its parent |
| `ZkClient.CreateNodeNeverUpdates` | src/main/java/com/scy/zookeeper/ZkClient.java:59-70 | `createNode` on an existing node returns `null` and leaves the whole store as it was |
| `ZkClient.CreateNodeWithDataThenRead` | src/main/java/com/scy/zookeeper/ZkClient.java:77-85 | after the upsert, `doGetContent` returns the new data unless the node was absent and below an ephemeral node, in which case it reads as before |
| `ZkClient.CreatedNodeIsChild` | src/main/java/com/scy/zookeeper/ZkClient.java:127-129 | a node created under a valid parent is listed by `getChildren` of that parent exactly when its name is one ZooKeeper accepts and no ancestor is ephemeral |
| `ZkClient.DeleteUndoesCreateNode` | src/main/java/com/scy/zookeeper/ZkClient.java:139-150 | deleting a node just created under existing parents gives back exactly the previous store and answers true; below an ephemeral node nothing was created and `delete` answers false |
| `ZkClient.CreateAll` | src/main/java/com/scy/zookeeper/config/RegisterCenter.java:188-194 | `createNode` on each path of a batch in any order: every valid path not below an ephemeral node exists, provided, for an ephemeral batch, that every batch path above it already existed, existing nodes are untouched, new nodes lie on the way to a batch path and never below an ephemeral node, an absent path with no batch path below it gets exactly the data and mode, and the store stays a tree |
| `ZkClient.DeleteAll` | src/main/java/com/scy/zookeeper/config/RegisterCenter.java:198-206 | `delete` on each path of a batch in any order: exactly the subtrees of the batch paths present at the start disappear, and no batch path remains |
| `ZkClient.CreateEach` | src/main/java/com/scy/zookeeper/config/RegisterCenter.java:188-194 | `createNode` on each path of a sequence in its order: nodes already present are untouched, and every new node lies on the way to one of the paths |
| `ZkClient.EphemeralWalkCreatesNothingBelow` | src/main/java/com/scy/zookeeper/config/RegisterCenter.java:188-194 | in an ephemeral walk where no path comes after a path at or below it, nothing is ever created below a walked path that was absent at the start: that path becomes an ephemeral node, which takes no children, or is refused because it is malformed or below an ephemeral node |
| `ZkClient.AddListener` | src/main/java/com/scy/zookeeper/ZkClient.java:160-165 | a new cache is always started; `curatorCacheMap` records it only for a listener not yet present, so the first cache is kept |
| `ZkClient.RemoveListener` | src/main/java/com/scy/zookeeper/ZkClient.java:170-178 | an unknown listener is a no-op; a known one loses exactly its own map entry and the recorded cache is closed |
| `ZkClient.AddListenerTwiceLeaksCache` | src/main/java/com/scy/zookeeper/ZkClient.java:160-165 | adding one listener twice and removing it leaves a started cache that no map entry reaches |
| `ZkClient.AddListenerOnce` | src/main/java/com/scy/zookeeper/ZkClient.java:160-165 | corrected `addListener`: a listener already registered changes nothing; a new one gets one recorded cache |
| `ZkClient.AddListenerOnceKeepsConsistent` | src/main/java/com/scy/zookeeper/ZkClient.java:160-165 | one corrected add keeps the table consistent: fresh cache ids, every open cache recorded, every recorded cache open and feeding its own listener |
| `ZkClient.RemoveListenerKeepsConsistent` | src/main/java/com/scy/zookeeper/ZkClient.java:170-178 | one remove keeps a consistent table consistent, and afterwards no open cache feeds the removed listener |
| `ZkClient.AddListenerOnceKeepsCachesReachable` | src/main/java/com/scy/zookeeper/ZkClient.java:160-178 | with the corrected add, any sequence of adds and removes from a consistent table keeps it consistent: every open cache stays recorded in the map, every recorded cache is open and feeds its own listener, and after a remove the removed listener has no open cache left |
| `JavaText.JoinFields` | src/main/java/com/scy/zookeeper/config/RegisterCenter.java:76 | cutting a string at every separator and gluing the pieces back gives the string |
| `JavaText.SplitIsPrefix` | src/main/java/com/scy/zookeeper/config/RegisterCenter.java:76 | the pieces `split("/")` returns, glued back with `/`, are a prefix of the input |
| `JavaText.SplitLeadingPair` | src/main/java/com/scy/zookeeper/config/RegisterCenter.java:76-83 | `k/a` or `k/a/...` with one-segment `k` and `a` splits into at least two pieces, the first two being `k` and `a` |
| `JavaText.DecimalRoundTrip` | src/main/java/com/scy/zookeeper/config/SystemTimeMonitor.java:80 | reading back the decimal digits of a natural number gives the number |
| `JavaText.ParseLongRoundTrip` | src/main/java/com/scy/zookeeper/config/SystemTimeMonitor.java:65 | `Long.parseLong(String.valueOf(n))` is `n` for every `long` |
| `JavaText.Split` | src/main/java/com/scy/zookeeper/config/RegisterCenter.java:76 | no piece contains the separator, and trailing empty pieces are dropped, so the last piece is non-empty whenever the separator occurs; with `JoinFields` and `SplitIsPrefix`, the pieces glued back with the separator are a prefix of the input |
| `JavaText.ParseLong` | src/main/java/com/scy/zookeeper/config/SystemTimeMonitor.java:65 | a digit string within `Long.MAX_VALUE` reads as its decimal value; a digit string beyond it, a lone sign, an empty string, a first character that is neither a sign nor a digit, or any later non-digit gives no value (`NumberFormatException`); with `ParseLongRoundTrip`, it reads back what `LongToString` writes |
| `JavaText.LongToString` | src/main/java/com/scy/zookeeper/config/SystemTimeMonitor.java:80 | `String.valueOf(long)`: at least one character, digits only after an optional leading `-`, which appears exactly for negative values; `ParseLongRoundTrip` gives back the number |
| `JavaText.ProperPrefixIsLess` | src/main/java/com/scy/zookeeper/config/RegisterCenter.java:170 | in `String.compareTo` order, the order of the `TreeSet` of addresses, a proper prefix sorts before the string it starts |
| `JavaText.LessAsymmetric` | src/main/java/com/scy/zookeeper/config/RegisterCenter.java:170 | in `String.compareTo` order, no two strings each sort before the other, and no string sorts before itself |
| `CuratorListener.Event` | src/main/java/com/scy/zookeeper/listener/CuratorListener.java:30-48 | each event type yields exactly one callback kind; creation reports the new node, a change reports the OLD node's path with both payloads, and deletion reports the old node |
| `CuratorListener.HandleEventRunsOneCallback` | src/main/java/com/scy/zookeeper/listener/CuratorListener.java:30-48 | handling an event runs exactly the one callback its type selects, with those arguments, or nothing if the listener leaves it at the default |
| `CuratorListener.DefaultListenerIgnoresEvents` | src/main/java/com/scy/zookeeper/listener/DataListener.java:17-37 | a listener that overrides nothing is left unchanged by every event |
| `RegisterCenter.PathsNest` | src/main/java/com/scy/zookeeper/config/RegisterCenter.java:60-65 | with names ZooKeeper accepts, the address node is exactly `"/scy-rpc/" + env + "/" + serviceKey + "/" + address`, a valid path and a child of the service node, which is a child of the environment node |
| `RegisterCenter.ServiceKeyToPath` | src/main/java/com/scy/zookeeper/config/RegisterCenter.java:63-65 | with an accepted environment name and a one-segment key, the service node is a direct child of the environment node, valid exactly when ZooKeeper accepts the key; `PathsNest` gives the literal `/scy-rpc/{env}/{serviceKey}` |
| `RegisterCenter.GetRegisterCenterData` | src/main/java/com/scy/zookeeper/config/RegisterCenter.java:67-85 | `null` for a path no longer than the environment path; a result has one-segment parts that, joined by `/`, start the rest of the path |
| `RegisterCenter.ParseAddressPath` | src/main/java/com/scy/zookeeper/config/RegisterCenter.java:67-85 | the path of an address node, or of anything below it, parses to its (serviceKey, address) |
| `RegisterCenter.ParseShortPathIsNull` | src/main/java/com/scy/zookeeper/config/RegisterCenter.java:72-79 | the environment node and a service node parse to `null` |
| `RegisterCenter.EnabledAddressesMeaning` | src/main/java/com/scy/zookeeper/config/RegisterCenter.java:135-154 | the filter keeps exactly the children of an existing service node whose name ZooKeeper accepts and whose payload is non-empty and decodes with `enable == true` |
| `RegisterCenter.EnabledAddresses` | src/main/java/com/scy/zookeeper/config/RegisterCenter.java:135-154 | the filtered addresses are children of the service node, none when the node is absent, and each one's payload is enabled; `EnabledAddressesMeaning` shows they are exactly the enabled addresses |
| `RegisterCenter.RefreshedEntry` | src/main/java/com/scy/zookeeper/config/RegisterCenter.java:136-158 | a new entry exists exactly when some child is enabled, and it is the whole enabled set |
| `RegisterCenter.Updates` | src/main/java/com/scy/zookeeper/config/RegisterCenter.java:134-161 | the entries a refresh writes: one per visited key with an enabled child, holding that key's enabled set |
| `RegisterCenter.RefreshDiscoveryData` | src/main/java/com/scy/zookeeper/config/RegisterCenter.java:124-162 | a visited key with enabled children gets exactly that set; every other entry, including a visited key with none, is unchanged; a null or empty key visits exactly the cached keys and adds none |
| `RegisterCenter.RefreshReplacesEntry` | src/main/java/com/scy/zookeeper/config/RegisterCenter.java:141-160 | a refresh replaces rather than merges: a cached address that is no longer enabled disappears once the key has any enabled child |
| `RegisterCenter.StaleEntrySurvivesRefresh` | src/main/java/com/scy/zookeeper/config/RegisterCenter.java:136-158 | with the service gone from the store, a refresh keeps the cached address |
| `RegisterCenter.RefreshOfOneKey` | src/main/java/com/scy/zookeeper/config/RegisterCenter.java:124-162 | a refresh of one non-empty key leaves every other cached key and its set as they were, and gives the key its enabled set when that is non-empty |
| `RegisterCenter.RefreshIsIdempotent` | src/main/java/com/scy/zookeeper/config/RegisterCenter.java:124-162 | refreshing twice in a row is the same as refreshing once |
| `RegisterCenter.Listener` | src/main/java/com/scy/zookeeper/config/RegisterCenter.java:115-162 | the store and `registryData` never change; an unparseable path leaves the cache as it was; a parsed non-empty key takes its enabled set when that is non-empty, and otherwise nothing changes, and no other entry is touched; a parsed empty key (from a path such as `{envPath}//a`) refreshes every cached key and adds none |
| `RegisterCenter.EmptyKeyPathParses` | src/main/java/com/scy/zookeeper/config/RegisterCenter.java:67-85 | a path with an empty segment right after the environment parses to the empty service key and the next segment as address |
| `RegisterCenter.RefreshOfEmptyKey` | src/main/java/com/scy/zookeeper/config/RegisterCenter.java:124-162 | a refresh of the empty key keeps the cached key set and gives each cached key its enabled set when that is non-empty, else its old entry |
| `RegisterCenter.RefreshOfDisabledKey` | src/main/java/com/scy/zookeeper/config/RegisterCenter.java:136-158 | a refresh of a non-empty key with nothing enabled leaves the whole cache unchanged |
| `RegisterCenter.ListenerRefreshesOnlyItsKey` | src/main/java/com/scy/zookeeper/config/RegisterCenter.java:115-122 | an event on an address node touches only that node's service key, which then holds its enabled set |
| `RegisterCenter.OnEvent` | src/main/java/com/scy/zookeeper/config/RegisterCenter.java:88-104 | creation events are handled with the new node's path, change and deletion events with the old node's path |
| `RegisterCenter.WatchListener` | src/main/java/com/scy/zookeeper/config/RegisterCenter.java:88-104 | the installed `DataListener` overrides all three callbacks, and each one calls `listener(path)`, ignoring the payloads |
| `RegisterCenter.Registry` | src/main/java/com/scy/zookeeper/config/RegisterCenter.java:164-177 | false and no change exactly when the key set or the address is empty; otherwise true, the address joins every given key's set and other keys keep theirs; every asserted address node exists afterwards when its path is valid and not below an ephemeral node (for one below another asserted node, when that one already existed); existing nodes are untouched, no new node lies below an ephemeral node, and newly created address nodes with no asserted node below them are ephemeral with `{"enable":true}` |
| `RegisterCenter.RefreshRegistryData` | src/main/java/com/scy/zookeeper/config/RegisterCenter.java:179-195 | `registryData` and the cache are unchanged, every desired address node exists afterwards unless its path is invalid, below an ephemeral node, or below another desired node that did not exist yet; no new node lies below an ephemeral node, and no existing node changes |
| `RegisterCenter.Remove` | src/main/java/com/scy/zookeeper/config/RegisterCenter.java:197-208 | always true; the address leaves the cached set of each given key; exactly the subtrees of the existing address nodes are deleted; `registryData` is unchanged |
| `RegisterCenter.Discovery` | src/main/java/com/scy/zookeeper/config/RegisterCenter.java:226-235 | a non-empty cached set is returned untouched; on a miss the key is refreshed and the enabled set is returned if there is one, else the old entry or `null`; for a non-empty key no other entry changes; for the empty key `""` every cached key takes its enabled set when it has one, no key is added, and the answer is the `""` entry if one is cached |
| `RegisterCenter.DiscoveryMany` | src/main/java/com/scy/zookeeper/config/RegisterCenter.java:210-224 | an empty map for no keys; without the empty key `""` among the keys, each requested key is in the result exactly when `discovery` of that key alone answers a non-empty set, with that set, and its cache entry is the one `discovery` of that key alone leaves; keys not asked for keep their entries |
| `RegisterCenter.DiscoveryIsAloneAnswer` | src/main/java/com/scy/zookeeper/config/RegisterCenter.java:226-235 | for a non-empty key, `discovery` answers the non-empty cached set if there is one, else the enabled set if non-empty, else the cached (empty) set or `null`, and leaves exactly that answer cached for the key |
| `RegisterCenter.PeriodicTick` | src/main/java/com/scy/zookeeper/config/RegisterCenter.java:108-112 | cached keys are refreshed against the store as it was before re-registration, no key is added, and every desired node exists afterwards unless its path is invalid, below an ephemeral node, or below another desired node that did not exist yet; new nodes lie only on the way to desired nodes, none below an ephemeral node, and the namespace stays a tree |
| `RegisterCenter.RemoveThenReassert` | src/main/java/com/scy/zookeeper/config/RegisterCenter.java:197-208 | because `remove` keeps `registryData`, the next `refreshRegistryData` re-creates every removed node that is still desired, valid, not below an ephemeral node and not below another desired node |
| `RegisterCenter.RegistryThenDiscovery` | src/main/java/com/scy/zookeeper/config/RegisterCenter.java:164-195 | an address registered for a new key, at a node not below an ephemeral node, is found by the next `discovery` of that key, with no periodic run in between |
| `RegisterCenter.RegisterNewAddress` | src/main/java/com/scy/zookeeper/config/RegisterCenter.java:164-195 | registering one new address for one new key records it as the key's only address and writes its node, ephemeral with `{"enable":true}`, keeping the store a tree |
| `RegisterCenter.DiscoveryFindsEnabled` | src/main/java/com/scy/zookeeper/config/RegisterCenter.java:226-235 | a cache miss returns a set that holds every enabled address the store has for the key |
| `RegisterCenter.RegisteredNodeIsEnabled` | src/main/java/com/scy/zookeeper/config/RegisterCenter.java:188-193 | a node that `registry` wrote with the enabled payload counts as an enabled address of its service |
| `RegisterCenter.RegistryOfKeyInOrder` | src/main/java/com/scy/zookeeper/config/RegisterCenter.java:182-194 | the private `registry(serviceKey, addressSet)` walked in `TreeSet` order: nothing for an empty key; otherwise nodes already present are untouched, and new nodes lie only on the way to the key's address nodes |
| `RegisterCenter.AscendingWalkCreatesNothingBelow` | src/main/java/com/scy/zookeeper/config/RegisterCenter.java:182-194 | within one key, the ascending walk never creates a node below an address node that was absent at the start: with `a` and `a/b` and neither present, `a/b` is never created |
| `MqRegister.PathsNest` | src/main/java/com/scy/zookeeper/config/MqRegister.java:46-51 | with names ZooKeeper accepts, the topic path is `"/scy-mq/" + env + "/" + topic`, the membership node adds `"/" + group`, and both are valid with the second a child of the first |
| `MqRegister.TopicToPath` | src/main/java/com/scy/zookeeper/config/MqRegister.java:49-51 | with an accepted environment name and a one-segment topic, the topic node is a direct child of the environment node, valid exactly when ZooKeeper accepts the topic; `PathsNest` gives the literal `/scy-mq/{env}/{topic}` |
| `MqRegister.Registry` | src/main/java/com/scy/zookeeper/config/MqRegister.java:64-74 | an empty topic or group changes nothing; otherwise the membership node exists when its path is valid and not below an ephemeral node, a newly created one is ephemeral and empty, new parents are empty containers, no existing node changes, and a recorded topic keeps its group |
| `MqRegister.RegistryPreservesWellFormed` | src/main/java/com/scy/zookeeper/config/MqRegister.java:71 | registering keeps the namespace a tree |
| `MqRegister.RegistryAgainChangesNothing` | src/main/java/com/scy/zookeeper/config/MqRegister.java:64-74 | `registry` for a recorded topic whose membership node exists is a no-op: `createNode` finds the node and `putIfAbsent` finds the topic |
| `MqRegister.RecordedGroupIsKept` | src/main/java/com/scy/zookeeper/config/MqRegister.java:73 | a topic already recorded keeps its group through any sequence of registrations |
| `MqRegister.FirstGroupWins` | src/main/java/com/scy/zookeeper/config/MqRegister.java:64-74 | in any run of `registry` calls, for a topic not yet recorded, the first call naming it with a non-empty group fixes its group for good (in the program the calls only repeat recorded entries, so this never changes an entry) |
| `MqRegister.RefreshRegistryData` | src/main/java/com/scy/zookeeper/config/MqRegister.java:60-62 | `registryData` is unchanged, every entry's membership node exists afterwards unless its path is invalid or below an ephemeral node (or below another entry's node that did not exist yet), no new node lies below an ephemeral node, and no existing node changes; once every entry's membership node exists, a refresh changes nothing at all, which is the steady state of the 60-second task (MqRegister.java:52-57) |
| `MqRegister.Remove` | src/main/java/com/scy/zookeeper/config/MqRegister.java:76-81 | always true; the membership node and its subtree are gone and nothing else changes, `registryData` included |
| `MqRegister.Discovery` | src/main/java/com/scy/zookeeper/config/MqRegister.java:83-86 | exactly the groups with a membership node under an existing topic node; empty when the topic node is absent |
| `MqRegister.RegisteredGroupIsDiscovered` | src/main/java/com/scy/zookeeper/config/MqRegister.java:64-86 | a registered group whose node is not below an ephemeral node is discovered under its topic |
| `MqRegister.RemovedGroupIsNotDiscovered` | src/main/java/com/scy/zookeeper/config/MqRegister.java:76-86 | a removed group is no longer discovered, and every other group of the topic is discovered exactly as before |
| `SystemTimeMonitor.ListenPathIsValid` | src/main/java/com/scy/zookeeper/config/SystemTimeMonitor.java:31-40 | the monitored node is `"/snowflake/forever/" + ip`, a valid path exactly when ip is a name ZooKeeper accepts |
| `SystemTimeMonitor.ListenPath` | src/main/java/com/scy/zookeeper/config/SystemTimeMonitor.java:40 | for a one-segment host string, the monitored node is a direct child of `/snowflake/forever`, valid exactly when ZooKeeper accepts the host string |
| `SystemTimeMonitor.CheckTimeStamp` | src/main/java/com/scy/zookeeper/config/SystemTimeMonitor.java:64-67 | true exactly when the clock is at or past the stored time; no answer (the exception) when the content is not a `long`, in particular when the node is absent |
| `SystemTimeMonitor.Init` | src/main/java/com/scy/zookeeper/config/SystemTimeMonitor.java:39-62 | node absent: uploads are scheduled, and the node is created persistent holding `now` unless ZooKeeper refuses the path, in which case it stays `null` and the store is unchanged; node present: it is remembered, the store is untouched, and uploads are scheduled exactly when the clock is not behind the stored time; unparseable content makes `init` throw without scheduling |
| `SystemTimeMonitor.UpdateNewData` | src/main/java/com/scy/zookeeper/config/SystemTimeMonitor.java:73-83 | a clock behind `lastUpdateTime` changes nothing; otherwise the node, if ZooKeeper accepts the write, reads back as the new `lastUpdateTime`, which is `now`; `lastUpdateTime` never decreases and other nodes are unchanged; new nodes lie only under the monitored node's path, not below an ephemeral node, and the namespace stays a tree |
| `SystemTimeMonitor.LastUpdateTimeIsMaximum` | src/main/java/com/scy/zookeeper/config/SystemTimeMonitor.java:73-83 | across any run of uploads, `lastUpdateTime` ends at the largest of its start value and all clock readings |
| `SystemTimeMonitor.CheckAfterUpdate` | src/main/java/com/scy/zookeeper/config/SystemTimeMonitor.java:64-82 | after an upload, a later `checkTimeStamp` passes exactly when the clock is not behind the uploaded time |
| `SystemTimeMonitor.FirstUploadIgnoresStoredTime` | src/main/java/com/scy/zookeeper/config/SystemTimeMonitor.java:29 | because `lastUpdateTime` starts at 0, the first upload after a successful `init` overwrites the stored time even with an earlier clock reading, shown on a well-formed store holding just the monitored node and its parents |

## Left out

- Concurrency is not modelled. The thread pools, the `volatile` maps and the
  interleaving of watch callbacks with the periodic task are out of scope; every
  operation runs to completion on its own.
- Timers are not modelled. The 60-second and 300-second periodic tasks are
  operations that are invoked explicitly (`RegisterCenter.PeriodicTick`,
  `SystemTimeMonitor.UpdateNewData`). "Scheduled" is a flag, so a second `init`
  that schedules again is not counted.
- The real clock and `NetworkInterfaceUtil.getIp()` are parameters.
- JSON decoding of `AddressDataBO` is the parameter `enableOf`.
- Charset conversion is not modelled: payloads are strings and their byte
  encoding is ignored.
- Curator and ZooKeeper internals are not modelled. That covers connection
  handling, retry, `CuratorCache` watch delivery and the cache's own
  consistency. The root node `/` is not a node of the model, and the model
  treats the path `/` like a malformed one. Container nodes
  are never reclaimed automatically.
- Sessions are not modelled. An ephemeral node disappears in ZooKeeper when the
  session that created it ends; in the model it stays until it is deleted. The
  other ephemeral rule, that such a node has no children, is modelled.
- Failures other than "node exists", "no node", "no children for ephemerals" and
  a malformed path are not modelled.
- Java reference semantics are not modelled; every operation returns values.
  `discovery(serviceKey)` returns the cached `TreeSet` itself, so a caller that
  mutates it mutates the cache. `discovery(serviceKeys)` puts those same set
  objects into its result map. `remove` edits the cached sets in place. None of
  this aliasing is modelled.
- The order of `getChildren` is not modelled: the refresh collects the names it
  keeps into a `TreeSet`, whose contents do not depend on that order. The
  ascending order of a `TreeSet` is modelled only where it decides which nodes
  exist, in the address walk of `registry` (see `RegisterCenter.Registry` below).
- `null` arguments are not modelled. Where the code tests
  `StringUtil.isEmpty`, `null` takes the same branch as the empty string `""`,
  which the model does have. A `null` path would behave as a malformed one.
  Null keys and addresses are not modelled. In particular,
  `discovery(null)`, and `discovery(serviceKeys)` with a `null` element, throw
  `NullPointerException` at `discoveryData.get`, because `discoveryData` is a
  `ConcurrentHashMap`. The model's `Discovery("")` is Java's empty string, not
  `null`.
- Writes to `registryData` from outside the class have no member of their own.
  Both registries carry Lombok's `@Getter` and `@Setter` (RegisterCenter.java:36-37,
  MqRegister.java:27-28), so other code can install a map with the generated
  setter or `put` into the live map the generated getter returns. A state's
  `registryData` can be any map, which covers every value either route can
  produce.
- `MqRegister.init` and `RegisterCenter.init` are modelled only through what
  they install. Their scheduling is the explicit operations above; the watch
  listener is `RegisterCenter.OnEvent`.
- `ZkLock` is left out: it is blocking mutual exclusion across threads.
- `DynamicConfiguration`, `ZookeeperConfig` and `ConfigCenter` are left out:
  they are Spring and reflection wiring.
- `CuratorListener.process` is left out: it calls methods that the repository's
  `ZkClient` and `DataListener` do not declare.
- `Long.parseLong` is modelled for ASCII digits only. Other Unicode decimal
  digits, which Java also accepts, are not modelled.
- `RegisterCenter.DiscoveryMany`: the contract is weaker when the empty key
  `""` is among the keys. `discovery("")` then refreshes every cached
  key, so what another key gets depends on whether it is looked up before or
  after `""`, which is Java's unspecified set order. In that case the contract
  states only the bounds of the result.
- `RegisterCenter.Registry`: with keys or addresses containing `/`, one asserted
  node can lie below another. Within one key, as with addresses `a` and `a/b`,
  Java's order is fixed: the `TreeSet` walks `a` first, because a proper prefix
  sorts first. When neither node exists, `a` becomes ephemeral and ZooKeeper then
  always refuses `a/b`. `RegisterCenter.AscendingWalkCreatesNothingBelow` proves
  this for any ascending walk of one key. Across keys the order is unspecified:
  the caller's `serviceKeys` set (line 169) and the `ConcurrentHashMap` walk
  (line 180). For example, address `y` of key `k/x` lies below address `x` of key
  `k`. There, if the upper node is created first it
  refuses the lower one; if second, it already exists as the lower one's empty
  container parent. The contract walks every node of the batch in any order,
  which covers both orders and also outcomes the sorted walk cannot reach (such
  as `a` left as an empty container below one key). It therefore guarantees the
  lower node only when the upper one existed before the call, and states the
  payload of a new node only when no asserted node lies below it.
- `RegisterCenter.RefreshRegistryData`, `RegisterCenter.PeriodicTick` and
  `MqRegister.RefreshRegistryData` state existence under the same condition as
  `RegisterCenter.Registry`, for the same reason; for `MqRegister`, groups
  containing `/` nest in the same way.
- `RegisterCenter.GetRegisterCenterData`: the contract states only the bounds
  of a result. Exact results are proved for address paths in
  `RegisterCenter.ParseAddressPath` and for short paths in
  `RegisterCenter.ParseShortPathIsNull`.

## Findings

| source | as written | input that shows it | evidently intended | confidence | as-written member | corrected member |
|---|---|---|---|---|---|---|
| src/main/java/com/scy/zookeeper/ZkClient.java:160-165 | `addListener` always builds and starts a new `CuratorCache`, but records it with `putIfAbsent`, so a listener that is already present keeps only its first cache | `addListener(p, L)` twice, then `removeListener(L)`: the second cache is still open, still delivers to `L`, and has no map entry that could close it | a listener already registered should not start an unrecorded cache, so that `removeListener` can always stop it | medium (not executed) | `ZkClient.AddListenerTwiceLeaksCache` | `ZkClient.AddListenerOnceKeepsCachesReachable` |

=== FILE: curator_listener.dfy ===
/**
  `CuratorListener.event`: a raw cache event (type, node before, node after) becomes
  one typed `DataListener` callback. `DataListener` callbacks default to no-ops, so a
  listener is the set of callbacks it overrides.
 */
module CuratorListener {
  import opened Optional

  /** `CuratorCacheListener.Type`. */
  datatype EventType = NodeCreated | NodeChanged | NodeDeleted

  /** Curator's `ChildData`: a node's path and its payload read as a string. */
  datatype ChildData = ChildData(path: string, data: string)

  /** The `DataListener` callback an event turns into. */
  datatype Callback =
    | Add(path: string, data: string)
    | Update(path: string, oldData: string, newData: string)
    | Delete(path: string, data: string)
  {
    /** The node the callback is about. */
    function Path(): string {
      match this
      case Add(p, _) => p
      case Update(p, _, _) => p
      case Delete(p, _) => p
    }
  }

  /**
    The node data `event` dereferences is present: the new node for a creation,
    both for a change, the old node for a deletion.
   */
  predicate WellFormedEvent(kind: EventType, oldData: Option<ChildData>, data: Option<ChildData>) {
    match kind
    case NodeCreated => data.Some?
    case NodeChanged => oldData.Some? && data.Some?
    case NodeDeleted => oldData.Some?
  }

  /**
    `event`: a creation reports the new node, a change reports the old node's path
    with both payloads, a deletion reports the old node.
   */
  function Event(kind: EventType, oldData: Option<ChildData>, data: Option<ChildData>): (cb: Callback)
    requires WellFormedEvent(kind, oldData, data)
    ensures cb.Add? <==> kind == NodeCreated
    ensures cb.Update? <==> kind == NodeChanged
    ensures cb.Delete? <==> kind == NodeDeleted
    ensures kind == NodeCreated ==> cb.Path() == data.value.path && cb.data == data.value.data
    ensures kind == NodeChanged ==> cb.Path() == oldData.value.path && cb.oldData == oldData.value.data && cb.newData == data.value.data
    ensures kind == NodeDeleted ==> cb.Path() == oldData.value.path && cb.data == oldData.value.data
  {
    match kind
    case NodeCreated => Add(data.value.path, data.value.data)
    case NodeChanged => Update(oldData.value.path, oldData.value.data, data.value.data)
    case NodeDeleted => Delete(oldData.value.path, oldData.value.data)
  }

  /**
    A `DataListener` over some state `S`: each callback it overrides as a state
    transition, `None` for one it leaves at the interface's empty default.
   */
  datatype DataListener<!S> = DataListener(
    add: Option<(S, string, string) -> S>,
    update: Option<(S, string, string, string) -> S>,
    delete: Option<(S, string, string) -> S>)

  /** Running one callback on a listener. */
  function Dispatch<S>(l: DataListener<S>, cb: Callback, s: S): S {
    match cb
    case Add(p, d) => if l.add.Some? then l.add.value(s, p, d) else s
    case Update(p, o, n) => if l.update.Some? then l.update.value(s, p, o, n) else s
    case Delete(p, d) => if l.delete.Some? then l.delete.value(s, p, d) else s
  }

  /**
    Handling one event runs exactly one of the listener's callbacks, chosen by the
    event type; a callback the listener does not override changes nothing.
   */
  lemma HandleEventRunsOneCallback<S>(l: DataListener<S>, kind: EventType, oldData: Option<ChildData>, data: Option<ChildData>, s: S)
    requires WellFormedEvent(kind, oldData, data)
    ensures kind == NodeCreated ==>
              Dispatch(l, Event(kind, oldData, data), s)
              == (if l.add.Some? then l.add.value(s, data.value.path, data.value.data) else s)
    ensures kind == NodeChanged ==>
              Dispatch(l, Event(kind, oldData, data), s)
              == (if l.update.Some? then l.update.value(s, oldData.value.path, oldData.value.data, data.value.data) else s)
    ensures kind == NodeDeleted ==>
              Dispatch(l, Event(kind, oldData, data), s)
              == (if l.delete.Some? then l.delete.value(s, oldData.value.path, oldData.value.data) else s)
  {
  }

  /** A listener overriding nothing ignores every event. */
  lemma DefaultListenerIgnoresEvents<S>(kind: EventType, oldData: Option<ChildData>, data: Option<ChildData>, s: S)
    requires WellFormedEvent(kind, oldData, data)
    ensures Dispatch(DataListener(None, None, None), Event(kind, oldData, data), s) == s
  {
  }
}

=== FILE: java_text.dfy ===
/**
  The pieces of `java.lang.String` and `java.lang.Long` the registry code relies on:
  `String.split` with a one-character separator, `String.compareTo` (the order of a
  `TreeSet<String>`), `String.valueOf(long)` and `Long.parseLong`.
 */
module JavaText {
  import opened Optional

  // ---------------------------------------------------------------------------
  // String.split
  // ---------------------------------------------------------------------------

  /** Every field of `s` between occurrences of `sep`, empty fields included. */
  function Fields(s: string, sep: char): (r: seq<string>)
    ensures |r| >= 1
    ensures forall i :: 0 <= i < |r| ==> sep !in r[i]
    decreases |s|
  {
    if |s| == 0 then [""]
    else if s[0] == sep then [""] + Fields(s[1..], sep)
    else
      var rest := Fields(s[1..], sep);
      [[s[0]] + rest[0]] + rest[1..]
  }

  /** The fields glued back together with `sep`. */
  function Join(xs: seq<string>, sep: char): string
    decreases |xs|
  {
    if |xs| == 0 then ""
    else if |xs| == 1 then xs[0]
    else xs[0] + [sep] + Join(xs[1..], sep)
  }

  /** Cutting at `sep` and gluing with `sep` gives back the original string. */
  lemma {:induction false} JoinFields(s: string, sep: char)
    ensures Join(Fields(s, sep), sep) == s
    decreases |s|
  {
    if |s| == 0 {
    } else if s[0] == sep {
      JoinFields(s[1..], sep);
      var rest := Fields(s[1..], sep);
      assert Fields(s, sep) == [""] + rest;
      assert s == "" + [sep] + s[1..];
    } else {
      JoinFields(s[1..], sep);
      var rest := Fields(s[1..], sep);
      var r := Fields(s, sep);
      assert r == [[s[0]] + rest[0]] + rest[1..];
      if |rest| == 1 {
        assert s == [s[0]] + s[1..];
      } else {
        assert r[1..] == rest[1..];
        assert Join(rest, sep) == rest[0] + [sep] + Join(rest[1..], sep);
        assert s == [s[0]] + s[1..];
      }
    }
  }

  /** A field free of `sep` followed by `sep` splits off as the first field. */
  lemma {:induction false} FieldsOfPrefix(x: string, sep: char, rest: string)
    requires sep !in x
    ensures Fields(x + [sep] + rest, sep) == [x] + Fields(rest, sep)
    decreases |x|
  {
    if |x| == 0 {
      assert x + [sep] + rest == [sep] + rest;
      assert ([sep] + rest)[1..] == rest;
    } else {
      var s := x + [sep] + rest;
      assert s[0] == x[0];
      assert s[1..] == x[1..] + [sep] + rest;
      FieldsOfPrefix(x[1..], sep, rest);
      assert [x[0]] + x[1..] == x;
    }
  }

  /** A string without `sep` is a single field. */
  lemma {:induction false} FieldsOfPlain(x: string, sep: char)
    requires sep !in x
    ensures Fields(x, sep) == [x]
    decreases |x|
  {
    if |x| > 0 {
      FieldsOfPlain(x[1..], sep);
      assert [x[0]] + x[1..] == x;
    }
  }

  /** `xs` without its trailing empty strings. */
  function DropTrailingEmpty(xs: seq<string>): (r: seq<string>)
    ensures |r| <= |xs| && r == xs[..|r|]
    ensures |r| == 0 || r[|r| - 1] != ""
    ensures forall i :: |r| <= i < |xs| ==> xs[i] == ""
    decreases |xs|
  {
    if |xs| == 0 then xs
    else if xs[|xs| - 1] == "" then DropTrailingEmpty(xs[..|xs| - 1])
    else xs
  }

  /** A non-empty entry at index `i` survives the trimming, as does everything before it. */
  lemma DropTrailingEmptyKeeps(xs: seq<string>, i: nat)
    requires i < |xs| && xs[i] != ""
    ensures i < |DropTrailingEmpty(xs)|
    ensures DropTrailingEmpty(xs)[..i + 1] == xs[..i + 1]
  {
    var r := DropTrailingEmpty(xs);
    assert r == xs[..|r|];
  }

  /**
    `s.split(String.valueOf(sep))` for a separator that is not a regular-expression
    metacharacter: a string without `sep` is returned whole (so `""` gives `[""]`);
    otherwise the fields with trailing empty ones removed.
   */
  function Split(s: string, sep: char): (r: seq<string>)
    ensures forall i :: 0 <= i < |r| ==> sep !in r[i]
    ensures sep in s ==> |r| == 0 || r[|r| - 1] != ""
  {
    if sep !in s then [s] else DropTrailingEmpty(Fields(s, sep))
  }

  /** The fields `Split` returns, glued back with `sep`, are a prefix of the input. */
  lemma SplitIsPrefix(s: string, sep: char)
    ensures |Split(s, sep)| >= 1 ==> Join(Split(s, sep), sep) <= s
  {
    if sep in s {
      var f := Fields(s, sep);
      JoinFields(s, sep);
      var r := DropTrailingEmpty(f);
      if |r| >= 1 {
        JoinPrefix(f, |r|, sep);
      }
    }
  }

  /** Gluing the first `n` fields gives a prefix of gluing all of them. */
  lemma {:induction false} JoinPrefix(xs: seq<string>, n: nat, sep: char)
    requires 1 <= n <= |xs|
    ensures Join(xs[..n], sep) <= Join(xs, sep)
    decreases n
  {
    if n == 1 {
      assert xs[..1] == [xs[0]];
      if |xs| > 1 {
        assert Join(xs, sep) == xs[0] + ([sep] + Join(xs[1..], sep));
      }
    } else {
      JoinPrefix(xs[1..], n - 1, sep);
      assert xs[..n][1..] == xs[1..][..n - 1];
      assert Join(xs[..n], sep) == xs[0] + [sep] + Join(xs[1..][..n - 1], sep);
      assert Join(xs, sep) == xs[0] + [sep] + Join(xs[1..], sep);
    }
  }

  /** Gluing two or more fields starts with the first two joined by `sep`. */
  lemma JoinLeadingPair(xs: seq<string>, sep: char)
    requires |xs| >= 2
    ensures xs[0] + [sep] + xs[1] <= Join(xs, sep)
  {
    var rest := xs[1..];
    if |rest| > 1 {
      assert Join(rest, sep) == xs[1] + ([sep] + Join(rest[1..], sep));
    }
    assert Join(xs, sep) == xs[0] + [sep] + Join(rest, sep);
  }

  /**
    Two non-empty `sep`-free pieces joined by `sep`, possibly followed by `sep` and
    anything, split into those two pieces first.
   */
  lemma SplitLeadingPair(x: string, y: string, sep: char, tail: string)
    requires x != "" && y != "" && sep !in x && sep !in y
    requires tail == "" || tail[0] == sep
    ensures |Split(x + [sep] + y + tail, sep)| >= 2
    ensures Split(x + [sep] + y + tail, sep)[..2] == [x, y]
  {
    var s := x + [sep] + y + tail;
    assert s[|x|] == sep;
    var ys := y + tail;
    assert s == x + [sep] + ys;
    FieldsOfPrefix(x, sep, ys);
    var f := Fields(s, sep);
    if tail == "" {
      assert ys == y;
      FieldsOfPlain(y, sep);
      assert f == [x, y];
    } else {
      assert ys == y + [sep] + tail[1..];
      FieldsOfPrefix(y, sep, tail[1..]);
      assert f == [x] + ([y] + Fields(tail[1..], sep));
    }
    assert f[..2] == [x, y];
    DropTrailingEmptyKeeps(f, 1);
  }

  /** A string without `sep` never splits into two or more parts. */
  lemma SplitPlain(x: string, sep: char)
    requires sep !in x
    ensures Split(x, sep) == [x]
  {
  }

  // ---------------------------------------------------------------------------
  // Long.toString and Long.parseLong
  // ---------------------------------------------------------------------------

  const LONG_MIN: int := -0x8000_0000_0000_0000
  const LONG_MAX: int := 0x7FFF_FFFF_FFFF_FFFF

  /** A Java `long`. */
  type Long = x: int | LONG_MIN <= x <= LONG_MAX

  predicate IsDigit(c: char) {
    '0' <= c <= '9'
  }

  predicate AllDigits(s: string) {
    forall i :: 0 <= i < |s| ==> IsDigit(s[i])
  }

  /** Decimal digits of `n`, without leading zeros. */
  function NatToDecimal(n: nat): (s: string)
    ensures |s| >= 1 && AllDigits(s)
    ensures |s| > 1 ==> s[0] != '0'
    decreases n
  {
    var d := [(('0' as int) + n % 10) as char];
    if n < 10 then d else NatToDecimal(n / 10) + d
  }

  /** The number written by a string of decimal digits. */
  function DecimalValue(s: string): nat
    requires AllDigits(s)
    decreases |s|
  {
    if |s| == 0 then 0
    else DecimalValue(s[..|s| - 1]) * 10 + (s[|s| - 1] as int - '0' as int)
  }

  /** Reading back the decimal digits of `n` gives `n`. */
  lemma {:induction false} DecimalRoundTrip(n: nat)
    ensures DecimalValue(NatToDecimal(n)) == n
    decreases n
  {
    var s := NatToDecimal(n);
    if n >= 10 {
      DecimalRoundTrip(n / 10);
      assert s[..|s| - 1] == NatToDecimal(n / 10);
    }
  }

  /** `String.valueOf(long)`: a minus sign for negative values, then the digits. */
  function LongToString(n: int): (s: string)
    ensures |s| >= 1
    ensures n >= 0 ==> AllDigits(s)
    ensures n < 0 ==> s[0] == '-' && AllDigits(s[1..])
  {
    if n < 0 then "-" + NatToDecimal(-n) else NatToDecimal(n)
  }

  /**
    `Long.parseLong(s)`: an optional `+` or `-`, then at least one ASCII digit, and
    the value must fit in a `long`; anything else throws `NumberFormatException`,
    modelled as `None`.
   */
  function ParseLong(s: string): (r: Option<Long>)
    ensures r.Some? ==> |s| >= 1
    ensures AllDigits(s) && |s| >= 1 && DecimalValue(s) <= LONG_MAX ==> r == Some(DecimalValue(s))
    ensures AllDigits(s) && |s| >= 1 && DecimalValue(s) > LONG_MAX ==> r.None?
    ensures |s| >= 1 && s[0] != '-' && s[0] != '+' && !IsDigit(s[0]) ==> r.None?
    ensures (exists i :: 1 <= i < |s| && !IsDigit(s[i])) ==> r.None?
    ensures s == "-" || s == "+" ==> r.None?
  {
    if |s| == 0 then None
    else
      var negative := s[0] == '-';
      var digits := if s[0] == '-' || s[0] == '+' then s[1..] else s;
      if |digits| == 0 || !AllDigits(digits) then None
      else
        var magnitude: int := DecimalValue(digits);
        var v := if negative then -magnitude else magnitude;
        if LONG_MIN <= v <= LONG_MAX then Some(v) else None
  }

  /** `Long.parseLong(String.valueOf(n)) == n` for every `long`. */
  lemma ParseLongRoundTrip(n: Long)
    ensures ParseLong(LongToString(n)) == Some(n)
  {
    if n < 0 {
      var s := LongToString(n);
      assert s[1..] == NatToDecimal(-(n as int));
      DecimalRoundTrip(-(n as int));
    } else {
      DecimalRoundTrip(n);
      var s := NatToDecimal(n);
      assert s[0] != '-' && s[0] != '+' by {
        assert IsDigit(s[0]);
      }
    }
  }

  // ---------------------------------------------------------------------------
  // String.compareTo
  // ---------------------------------------------------------------------------

  /**
    `a.compareTo(b) < 0`: at the first position where the strings differ, `a` has the
    smaller character, or `a` is a proper prefix of `b`. Characters compare by code
    point, which is Java's UTF-16 order on strings without characters above U+FFFF.
   */
  predicate Less(a: string, b: string)
    decreases |a|
  {
    if |a| == 0 then |b| > 0
    else if |b| == 0 then false
    else if a[0] != b[0] then a[0] < b[0]
    else Less(a[1..], b[1..])
  }

  /** The order in which a `TreeSet<String>` is walked: strictly ascending. */
  predicate Ascending(xs: seq<string>) {
    forall i, j :: 0 <= i < j < |xs| ==> Less(xs[i], xs[j])
  }

  /** A proper prefix sorts first. */
  lemma {:induction false} ProperPrefixIsLess(a: string, b: string)
    requires |a| < |b| && b[..|a|] == a
    ensures Less(a, b)
    decreases |a|
  {
    if |a| > 0 {
      assert a[0] == b[0];
      assert b[1..][..|a| - 1] == a[1..];
      ProperPrefixIsLess(a[1..], b[1..]);
    }
  }

  /** No two strings sort before each other. */
  lemma {:induction false} LessAsymmetric(a: string, b: string)
    requires Less(a, b)
    ensures !Less(b, a)
    decreases |a|
  {
    if |a| > 0 && |b| > 0 && a[0] == b[0] {
      LessAsymmetric(a[1..], b[1..]);
    }
  }
}

=== FILE: mq_register.dfy ===
/**
  `MqRegister`: consumer-group membership of message topics, one ephemeral node per
  (topic, group) at `/scy-mq/{env}/{topic}/{group}`. `registryData` maps a topic to
  the group this process belongs to. Its entries come from outside the class, through
  the generated setter or through the live map the generated getter returns, so any
  map is a reachable starting point.
 */
module MqRegister {
  import opened ZkClient

  const BASE_PATH: string := "/scy-mq"

  datatype State = State(env: string, store: Tree, registryData: map<string, string>)

  function EnvPath(env: string): string {
    BASE_PATH + "/" + env
  }

  /**
    `topicToPath`: under an accepted environment name, the topic node is a direct child
    of the environment node, and a valid path exactly when ZooKeeper accepts the topic as
    a node name.
   */
  function TopicToPath(env: string, topic: string): (r: Path)
    ensures IsNodeName(env) && IsSegment(topic) ==>
              IsChild(EnvPath(env), r) && (ValidPath(r) <==> IsNodeName(topic))
  {
    BasePathIsValid();
    ChildPathFacts(BASE_PATH, env);
    ChildPathFacts(EnvPath(env), topic);
    EnvPath(env) + "/" + topic
  }

  /** The node that records membership of `group` in `topic`. */
  function MembershipPath(env: string, topic: string, group: string): Path {
    TopicToPath(env, topic) + "/" + group
  }

  /** `/scy-mq` is a valid path. */
  lemma BasePathIsValid()
    ensures ValidPath(BASE_PATH)
  {
    var name := "scy-mq";
    assert BASE_PATH == "/" + name;
    forall i | 0 <= i < |name|
      ensures !ForbiddenChar(name[i])
    {
      assert name[i] in "scy-mq";
    }
    TopLevelPath(name);
  }

  /**
    With names ZooKeeper accepts, the paths are `/scy-mq/{env}/{topic}/{group}`, all
    valid, the membership node a direct child of the topic node.
   */
  lemma PathsNest(env: string, topic: string, group: string)
    requires IsNodeName(env) && IsNodeName(topic) && IsNodeName(group)
    ensures TopicToPath(env, topic) == "/scy-mq/" + env + "/" + topic
    ensures MembershipPath(env, topic, group) == "/scy-mq/" + env + "/" + topic + "/" + group
    ensures ValidPath(TopicToPath(env, topic))
    ensures IsChild(TopicToPath(env, topic), MembershipPath(env, topic, group))
    ensures ValidPath(MembershipPath(env, topic, group))
  {
    BasePathIsValid();
    ChildPathIsChild(BASE_PATH, env);
    ChildPathIsChild(EnvPath(env), topic);
    ChildPathIsChild(TopicToPath(env, topic), group);
  }

  /**
    The private `registry(topic, group)`: nothing happens for an empty topic or
    group; otherwise the membership node is created if absent (an ephemeral node with
    an empty payload, an existing one left as it is, none below an ephemeral node)
    and the group is recorded with `putIfAbsent`, so a topic keeps the first group
    recorded for it.
   */
  function Registry(st: State, topic: string, group: string): (r: State)
    ensures topic == "" || group == "" ==> r == st
    ensures r.env == st.env
    ensures topic in st.registryData ==> r.registryData == st.registryData
    ensures topic !in st.registryData && topic != "" && group != "" ==>
              r.registryData == st.registryData[topic := group]
    ensures topic != "" && group != "" && ValidPath(MembershipPath(st.env, topic, group))
            && !UnderEphemeral(st.store, MembershipPath(st.env, topic, group)) ==>
              MembershipPath(st.env, topic, group) in r.store
    ensures MembershipPath(st.env, topic, group) in r.store && MembershipPath(st.env, topic, group) !in st.store ==>
              r.store[MembershipPath(st.env, topic, group)] == Node("", Ephemeral)
    ensures forall q :: q in st.store ==> q in r.store && r.store[q] == st.store[q]
    ensures forall q :: q in r.store && q !in st.store ==> InSubtree(q, MembershipPath(st.env, topic, group))
    ensures forall q :: q in r.store && q !in st.store && q != MembershipPath(st.env, topic, group) ==>
              r.store[q] == Node("", Container)
    ensures forall q :: q in r.store && q !in st.store ==> !UnderEphemeral(st.store, MembershipPath(st.env, topic, group))
  {
    if topic == "" || group == "" then st
    else
      var path := MembershipPath(st.env, topic, group);
      var store := CreateNode(st.store, path, "", Ephemeral).0;
      var reg := if topic in st.registryData then st.registryData else st.registryData[topic := group];
      State(st.env, store, reg)
  }

  /** `registry` keeps the namespace a tree. */
  lemma RegistryPreservesWellFormed(st: State, topic: string, group: string)
    requires WellFormed(st.store)
    ensures WellFormed(Registry(st, topic, group).store)
  {
    CreateNodePreservesWellFormed(st.store, MembershipPath(st.env, topic, group), "", Ephemeral);
  }

  /**
    `registry` for a recorded topic whose membership node already exists changes
    nothing: the create finds the node, and `putIfAbsent` finds the topic.
   */
  lemma RegistryAgainChangesNothing(st: State, topic: string, group: string)
    requires topic in st.registryData && MembershipPath(st.env, topic, group) in st.store
    ensures Registry(st, topic, group) == st
  {
    if topic != "" && group != "" {
      var path := MembershipPath(st.env, topic, group);
      assert CreateNode(st.store, path, "", Ephemeral).0 == st.store;
    }
  }

  /** A run of `registry` calls, one per (topic, group) pair, in order. */
  function RegistryAll(st: State, calls: seq<(string, string)>): State
    decreases |calls|
  {
    if |calls| == 0 then st
    else RegistryAll(Registry(st, calls[0].0, calls[0].1), calls[1..])
  }

  /** A topic already recorded keeps its group through any run of `registry` calls. */
  lemma {:induction false} RecordedGroupIsKept(st: State, calls: seq<(string, string)>, topic: string)
    requires topic in st.registryData
    ensures topic in RegistryAll(st, calls).registryData
    ensures RegistryAll(st, calls).registryData[topic] == st.registryData[topic]
    decreases |calls|
  {
    if |calls| > 0 {
      var next := Registry(st, calls[0].0, calls[0].1);
      RecordedGroupIsKept(next, calls[1..], topic);
    }
  }

  /**
    For a topic not yet recorded, the first call that names it with a non-empty
    group decides its group for good.
   */
  lemma {:induction false} FirstGroupWins(st: State, calls: seq<(string, string)>, topic: string, i: nat)
    requires topic != "" && topic !in st.registryData
    requires i < |calls| && calls[i].0 == topic && calls[i].1 != ""
    requires forall j :: 0 <= j < i ==> calls[j].0 != topic || calls[j].1 == ""
    ensures topic in RegistryAll(st, calls).registryData
    ensures RegistryAll(st, calls).registryData[topic] == calls[i].1
    decreases i
  {
    var next := Registry(st, calls[0].0, calls[0].1);
    if i == 0 {
      assert next.registryData[topic] == calls[0].1;
      RecordedGroupIsKept(next, calls[1..], topic);
    } else {
      assert topic !in next.registryData;
      assert calls[1..][i - 1] == calls[i];
      FirstGroupWins(next, calls[1..], topic, i - 1);
    }
  }

  /** Every membership node `refreshRegistryData` asserts: one per entry with a non-empty topic and group. */
  function MembershipPaths(env: string, reg: map<string, string>): set<Path> {
    set topic | topic in reg && topic != "" && reg[topic] != "" :: MembershipPath(env, topic, reg[topic])
  }

  /**
    `refreshRegistryData`: `registry(topic, group)` for every entry, in the map's
    unspecified order. The map itself is unchanged, every entry's membership node
    that is safe in the batch exists afterwards, no node already present changes,
    and nothing new appears below an ephemeral node.
   */
  method RefreshRegistryData(st: State) returns (r: State)
    ensures r.env == st.env && r.registryData == st.registryData
    ensures forall topic ::
              (topic in r.registryData && topic != "" && r.registryData[topic] != ""
               && SafeInBatch(st.store, MembershipPaths(st.env, st.registryData), Ephemeral,
                              MembershipPath(r.env, topic, r.registryData[topic]))) ==>
              MembershipPath(r.env, topic, r.registryData[topic]) in r.store
    ensures forall q :: q in st.store ==> q in r.store && r.store[q] == st.store[q]
    ensures forall q :: q in r.store && q !in st.store ==>
              exists p :: p in MembershipPaths(st.env, st.registryData) && InSubtree(q, p)
    ensures forall q :: q in r.store && q !in st.store ==> !UnderEphemeral(st.store, q)
    ensures WellFormed(st.store) ==> WellFormed(r.store)
    ensures (forall topic :: topic in st.registryData && topic != "" && st.registryData[topic] != "" ==>
               MembershipPath(st.env, topic, st.registryData[topic]) in st.store) ==> r == st
  {
    r := st;
    var paths := MembershipPaths(st.env, st.registryData);
    ghost var allPresent := forall topic :: topic in st.registryData && topic != "" && st.registryData[topic] != "" ==>
                              MembershipPath(st.env, topic, st.registryData[topic]) in st.store;
    var todo := st.registryData.Keys;
    while todo != {}
      invariant todo <= st.registryData.Keys
      invariant r.env == st.env && r.registryData == st.registryData
      invariant forall topic ::
                  (topic in st.registryData - todo && topic != "" && st.registryData[topic] != ""
                   && SafeInBatch(st.store, paths, Ephemeral, MembershipPath(st.env, topic, st.registryData[topic]))) ==>
                  MembershipPath(st.env, topic, st.registryData[topic]) in r.store
      invariant forall q :: q in st.store ==> q in r.store && r.store[q] == st.store[q]
      invariant forall q :: q in r.store && q !in st.store ==>
                  exists p :: p in paths && InSubtree(q, p)
      invariant forall q :: q in r.store && q !in st.store ==> !UnderEphemeral(st.store, q)
      invariant forall q :: q in r.store && q !in st.store && q !in paths ==> r.store[q] == Node("", Container)
      invariant forall q :: q in r.store && q !in st.store ==>
                  r.store[q] == Node("", Container) || r.store[q] == Node("", Ephemeral)
      invariant WellFormed(st.store) ==> WellFormed(r.store)
      invariant allPresent ==> r == st
      decreases todo
    {
      var topic :| topic in todo;
      var group := st.registryData[topic];
      var before := r;
      if allPresent && topic != "" && group != "" {
        RegistryAgainChangesNothing(before, topic, group);
      }
      if WellFormed(st.store) {
        RegistryPreservesWellFormed(before, topic, group);
      }
      r := Registry(before, topic, group);
      RegistryStepCreatesSafe(st, before, r, topic, todo);
      RegistryStepAddsOnlyBelowBatch(st, before, r, topic);
      todo := todo - {topic};
    }
  }

  /** A step of `refreshRegistryData` keeps the membership nodes made so far and makes its own when it is safe. */
  lemma RegistryStepCreatesSafe(st: State, before: State, after: State, topic: string, todo: set<string>)
    requires topic in todo && todo <= st.registryData.Keys && before.env == st.env
    requires after == Registry(before, topic, st.registryData[topic])
    requires forall k ::
               (k in st.registryData - todo && k != "" && st.registryData[k] != ""
                && SafeInBatch(st.store, MembershipPaths(st.env, st.registryData), Ephemeral,
                               MembershipPath(st.env, k, st.registryData[k]))) ==>
               MembershipPath(st.env, k, st.registryData[k]) in before.store
    requires forall q :: q in st.store ==> q in before.store && before.store[q] == st.store[q]
    requires forall q :: q in before.store && q !in st.store && q !in MembershipPaths(st.env, st.registryData) ==>
               before.store[q] == Node("", Container)
    requires forall q :: q in before.store && q !in st.store ==>
               before.store[q] == Node("", Container) || before.store[q] == Node("", Ephemeral)
    ensures forall k ::
              (k in st.registryData - (todo - {topic}) && k != "" && st.registryData[k] != ""
               && SafeInBatch(st.store, MembershipPaths(st.env, st.registryData), Ephemeral,
                              MembershipPath(st.env, k, st.registryData[k]))) ==>
              MembershipPath(st.env, k, st.registryData[k]) in after.store
  {
    var group := st.registryData[topic];
    var paths := MembershipPaths(st.env, st.registryData);
    var path := MembershipPath(st.env, topic, group);
    if topic != "" && group != "" && SafeInBatch(st.store, paths, Ephemeral, path) {
      assert path in paths;
      NoEphemeralAddedAbove(st.store, before.store, paths, Ephemeral, path, "");
    }
  }

  /** A step of `refreshRegistryData` adds nodes only on the way to a membership path, none below an ephemeral node. */
  lemma RegistryStepAddsOnlyBelowBatch(st: State, before: State, after: State, topic: string)
    requires topic in st.registryData && before.env == st.env
    requires after == Registry(before, topic, st.registryData[topic])
    requires forall q :: q in st.store ==> q in before.store && before.store[q] == st.store[q]
    requires forall q :: q in before.store && q !in st.store ==> !UnderEphemeral(st.store, q)
    requires forall q :: q in before.store && q !in st.store && q !in MembershipPaths(st.env, st.registryData) ==>
               before.store[q] == Node("", Container)
    requires forall q :: q in before.store && q !in st.store ==>
               before.store[q] == Node("", Container) || before.store[q] == Node("", Ephemeral)
    requires forall q :: q in before.store && q !in st.store ==>
               exists p :: p in MembershipPaths(st.env, st.registryData) && InSubtree(q, p)
    ensures forall q :: q in after.store && q !in st.store ==> !UnderEphemeral(st.store, q)
    ensures forall q :: q in after.store && q !in st.store && q !in MembershipPaths(st.env, st.registryData) ==>
              after.store[q] == Node("", Container)
    ensures forall q :: q in after.store && q !in st.store ==>
              after.store[q] == Node("", Container) || after.store[q] == Node("", Ephemeral)
    ensures forall q :: q in after.store && q !in st.store ==>
              exists p :: p in MembershipPaths(st.env, st.registryData) && InSubtree(q, p)
  {
    var group := st.registryData[topic];
    var path := MembershipPath(st.env, topic, group);
    forall q | q in after.store && q !in st.store
      ensures !UnderEphemeral(st.store, q)
      ensures (exists p :: p in MembershipPaths(st.env, st.registryData) && InSubtree(q, p))
    {
      if q !in before.store {
        assert path in MembershipPaths(st.env, st.registryData);
        assert InSubtree(q, path);
        forall a | a in st.store && IsAncestor(a, q)
          ensures st.store[a].mode != Ephemeral
        {
          if q != path {
            AncestorTransitive(a, q, path);
          }
          assert before.store[a] == st.store[a];
        }
      }
    }
  }

  /**
    `remove(topic, group)`: delete the membership node with anything below it;
    `registryData` is untouched and the answer is always true.
   */
  function Remove(st: State, topic: string, group: string): (r: (State, bool))
    ensures r.1
    ensures r.0.env == st.env && r.0.registryData == st.registryData
    ensures !CheckExists(r.0.store, MembershipPath(st.env, topic, group))
    ensures forall q :: q in r.0.store <==>
              q in st.store && !(CheckExists(st.store, MembershipPath(st.env, topic, group))
                                 && InSubtree(MembershipPath(st.env, topic, group), q))
    ensures forall q :: q in r.0.store ==> r.0.store[q] == st.store[q]
  {
    var deleted := Delete(st.store, MembershipPath(st.env, topic, group));
    (st.(store := deleted.0), true)
  }

  /** `discovery(topic)`: the groups with a membership node under the topic, none when the topic node is absent. */
  function Discovery(st: State, topic: string): (r: set<string>)
    ensures !CheckExists(st.store, TopicToPath(st.env, topic)) ==> r == {}
    ensures forall g :: g in r <==>
              CheckExists(st.store, TopicToPath(st.env, topic)) && IsSegment(g) && MembershipPath(st.env, topic, g) in st.store
  {
    GetChildren(st.store, TopicToPath(st.env, topic))
  }

  /** A group registered for a topic is discovered under it. */
  lemma RegisteredGroupIsDiscovered(st: State, topic: string, group: string)
    requires WellFormed(st.store)
    requires IsNodeName(st.env) && IsNodeName(topic) && IsNodeName(group)
    requires !UnderEphemeral(st.store, MembershipPath(st.env, topic, group))
    ensures group in Discovery(Registry(st, topic, group), topic)
  {
    PathsNest(st.env, topic, group);
    RegistryPreservesWellFormed(st, topic, group);
    assert TopicToPath(st.env, topic) in Ancestors(MembershipPath(st.env, topic, group));
  }

  /** A removed group is no longer discovered, and no other group of the topic is affected. */
  lemma RemovedGroupIsNotDiscovered(st: State, topic: string, group: string)
    requires IsNodeName(st.env) && IsNodeName(topic) && IsNodeName(group)
    ensures group !in Discovery(Remove(st, topic, group).0, topic)
    ensures forall g :: g != group && IsSegment(g) ==>
              (g in Discovery(Remove(st, topic, group).0, topic) <==> g in Discovery(st, topic))
  {
    var r := Remove(st, topic, group).0;
    var tp := TopicToPath(st.env, topic);
    PathsNest(st.env, topic, group);
    assert !InSubtree(MembershipPath(st.env, topic, group), tp);
    forall g | g != group && IsSegment(g)
      ensures !InSubtree(MembershipPath(st.env, topic, group), MembershipPath(st.env, topic, g))
    {
      var p := MembershipPath(st.env, topic, group);
      var q := MembershipPath(st.env, topic, g);
      ChildPathIsChild(tp, g);
      ChildPathIsChild(tp, group);
      if |p| < |q| && q[..|p|] == p {
        assert q[|p|] == g[|p| - |tp| - 1];
      }
    }
  }
}

=== FILE: optional.dfy ===
/** The Java `null`-or-value convention, made explicit. */
module Optional {

  /** `None` stands for a Java method returning `null`. */
  datatype Option<T> = None | Some(value: T)
}

=== FILE: register_center.dfy ===
/**
  `RegisterCenter`: the RPC registry and discovery cache over the ZooKeeper
  namespace `/scy-rpc/{env}/{serviceKey}/{address}`.

  `registryData` is what this process wants registered (service key to addresses),
  `discoveryData` the cached enabled addresses per service key. Every operation is a
  transition of (store, registryData, discoveryData). The decoding of an
  `AddressDataBO` payload is the parameter `enableOf`: `Some(b)` for a payload whose
  `enable` field reads `b`, `None` for one that does not parse or has no `enable`.
 */
module RegisterCenter {
  import opened Optional
  import opened JavaText
  import opened ZkClient
  import CuratorListener

  const BASE_PATH: string := "/scy-rpc"

  /** The JSON of an `AddressDataBO` whose `enable` is true, as `registry` writes it. */
  const ENABLED_PAYLOAD: string := "{\"enable\":true}"

  /** A (serviceKey, address) pair recovered from a node path. */
  datatype RegisterCenterData = RegisterCenterData(serviceKey: string, address: string)

  datatype State = State(
    env: string,
    store: Tree,
    registryData: map<string, set<string>>,
    discoveryData: map<string, set<string>>)

  /** A freshly constructed register centre: both maps empty. */
  function NewRegisterCenter(env: string, store: Tree): State {
    State(env, store, map[], map[])
  }

  // ---------------------------------------------------------------------------
  // Paths
  // ---------------------------------------------------------------------------

  function EnvPath(env: string): string {
    BASE_PATH + "/" + env
  }

  /**
    `serviceKeyToPath`: under an accepted environment name, the service node is a direct
    child of the environment node, and a valid path exactly when ZooKeeper accepts the key
    as a node name.
   */
  function ServiceKeyToPath(env: string, serviceKey: string): (r: Path)
    ensures IsNodeName(env) && IsSegment(serviceKey) ==>
              IsChild(EnvPath(env), r) && (ValidPath(r) <==> IsNodeName(serviceKey))
  {
    BasePathIsValid();
    ChildPathFacts(BASE_PATH, env);
    ChildPathFacts(EnvPath(env), serviceKey);
    EnvPath(env) + "/" + serviceKey
  }

  /** The node that registers `address` for `serviceKey`. */
  function AddressPath(env: string, serviceKey: string, address: string): Path {
    ServiceKeyToPath(env, serviceKey) + "/" + address
  }

  /**
    With names ZooKeeper accepts, the paths are `/scy-rpc/{env}/{serviceKey}/{address}`,
    all valid, each the direct child of the one before.
   */
  lemma PathsNest(env: string, serviceKey: string, address: string)
    requires IsNodeName(env) && IsNodeName(serviceKey) && IsNodeName(address)
    ensures AddressPath(env, serviceKey, address) == "/scy-rpc/" + env + "/" + serviceKey + "/" + address
    ensures ValidPath(EnvPath(env))
    ensures IsChild(EnvPath(env), ServiceKeyToPath(env, serviceKey))
    ensures IsChild(ServiceKeyToPath(env, serviceKey), AddressPath(env, serviceKey, address))
    ensures ValidPath(AddressPath(env, serviceKey, address))
  {
    assert AddressPath(env, serviceKey, address) == "/scy-rpc/" + env + "/" + serviceKey + "/" + address;
    var envPath, keyPath := EnvPath(env), ServiceKeyToPath(env, serviceKey);
    assert ValidPath(envPath) by {
      BasePathIsValid();
      ChildPathIsChild(BASE_PATH, env);
    }
    assert IsChild(envPath, keyPath) && ValidPath(keyPath) by {
      ChildPathIsChild(envPath, serviceKey);
    }
    assert IsChild(keyPath, AddressPath(env, serviceKey, address)) && ValidPath(AddressPath(env, serviceKey, address)) by {
      ChildPathIsChild(keyPath, address);
    }
  }

  /** `/scy-rpc` is a valid path. */
  lemma BasePathIsValid()
    ensures ValidPath(BASE_PATH)
  {
    var name := "scy-rpc";
    assert BASE_PATH == "/" + name;
    forall i | 0 <= i < |name|
      ensures !ForbiddenChar(name[i])
    {
      assert name[i] in "scy-rpc";
    }
    TopLevelPath(name);
  }

  /**
    `getRegisterCenterData`: skip the environment path and one more character, split
    the rest at `/` and take the first two pieces; `null` for a path no longer than
    the environment path or one that yields fewer than two pieces. The prefix itself
    is not compared.
   */
  function GetRegisterCenterData(env: string, path: string): (r: Option<RegisterCenterData>)
    ensures |path| <= |EnvPath(env)| ==> r.None?
    ensures r.Some? ==> '/' !in r.value.serviceKey && '/' !in r.value.address
    ensures r.Some? ==> r.value.serviceKey + "/" + r.value.address <= path[|EnvPath(env)| + 1..]
  {
    var envPath := EnvPath(env);
    if |path| == 0 || |path| <= |envPath| then None
    else
      var rest := path[|envPath| + 1..];
      var parts := Split(rest, '/');
      if |parts| < 2 then None
      else
        SplitIsPrefix(rest, '/');
        JoinLeadingPair(parts, '/');
        Some(RegisterCenterData(parts[0], parts[1]))
  }

  /**
    The path of an address node, or of anything below it, parses back to its
    service key and address.
   */
  lemma ParseAddressPath(env: string, serviceKey: string, address: string, tail: string)
    requires IsSegment(serviceKey) && IsSegment(address)
    requires tail == "" || tail[0] == '/'
    ensures GetRegisterCenterData(env, AddressPath(env, serviceKey, address) + tail)
         == Some(RegisterCenterData(serviceKey, address))
  {
    var envPath := EnvPath(env);
    var path := AddressPath(env, serviceKey, address) + tail;
    assert path == envPath + "/" + (serviceKey + "/" + address + tail);
    assert path[|envPath| + 1..] == serviceKey + "/" + address + tail;
    SplitLeadingPair(serviceKey, address, '/', tail);
  }

  /** The environment node and a service node carry no address and parse to `null`. */
  lemma ParseShortPathIsNull(env: string, serviceKey: string)
    requires '/' !in serviceKey
    ensures GetRegisterCenterData(env, EnvPath(env)) == None
    ensures GetRegisterCenterData(env, ServiceKeyToPath(env, serviceKey)) == None
  {
    var path := ServiceKeyToPath(env, serviceKey);
    assert path[|EnvPath(env)| + 1..] == serviceKey;
    SplitPlain(serviceKey, '/');
  }

  // ---------------------------------------------------------------------------
  // Discovery refresh
  // ---------------------------------------------------------------------------

  /** The filter of `refreshDiscoveryData`: non-empty content whose `enable` reads true. */
  predicate Enabled(enableOf: string -> Option<bool>, payload: string) {
    payload != "" && enableOf(payload) == Some(true)
  }

  /**
    Reference reading of "an enabled address of a service": the service node exists
    and has a direct child named `address` whose payload is enabled.
   */
  predicate IsEnabledAddress(enableOf: string -> Option<bool>, env: string, t: Tree, serviceKey: string, address: string) {
    && CheckExists(t, ServiceKeyToPath(env, serviceKey))
    && IsNodeName(address)
    && AddressPath(env, serviceKey, address) in t
    && Enabled(enableOf, t[AddressPath(env, serviceKey, address)].data)
  }

  /**
    The address set `refreshDiscoveryData` computes for one key: the children of the
    service node kept by the filter.
   */
  function EnabledAddresses(enableOf: string -> Option<bool>, env: string, t: Tree, serviceKey: string): (r: set<string>)
    ensures r <= GetChildren(t, ServiceKeyToPath(env, serviceKey))
    ensures !CheckExists(t, ServiceKeyToPath(env, serviceKey)) ==> r == {}
    ensures forall a :: a in r ==> Enabled(enableOf, t[ServiceKeyToPath(env, serviceKey) + "/" + a].data)
  {
    var servicePath := ServiceKeyToPath(env, serviceKey);
    set a | a in GetChildren(t, servicePath) && Enabled(enableOf, DoGetContent(t, servicePath + "/" + a))
  }

  /** The filtered children are exactly the enabled addresses of the service. */
  lemma EnabledAddressesMeaning(enableOf: string -> Option<bool>, env: string, t: Tree, serviceKey: string)
    ensures forall a :: a in EnabledAddresses(enableOf, env, t, serviceKey) <==> IsEnabledAddress(enableOf, env, t, serviceKey, a)
  {
    var servicePath := ServiceKeyToPath(env, serviceKey);
    forall a | IsSegment(a) && CheckExists(t, servicePath)
      ensures CheckExists(t, servicePath + "/" + a) <==> IsNodeName(a) && servicePath + "/" + a in t
    {
      ChildPathIsChild(servicePath, a);
    }
  }

  /**
    The new cache entry for one key, or `None` when the source returns early: no
    children, or no child passes the filter.
   */
  function RefreshedEntry(enableOf: string -> Option<bool>, env: string, t: Tree, serviceKey: string): (r: Option<set<string>>)
    ensures r.Some? <==> EnabledAddresses(enableOf, env, t, serviceKey) != {}
    ensures r.Some? ==> r.value == EnabledAddresses(enableOf, env, t, serviceKey)
  {
    var servicePath := ServiceKeyToPath(env, serviceKey);
    if GetChildren(t, servicePath) == {} then None
    else
      var enabled := EnabledAddresses(enableOf, env, t, serviceKey);
      if enabled == {} then None else Some(enabled)
  }

  /** The keys `refreshDiscoveryData(key)` visits: `key` itself, or every cached key when `key` is null or empty. */
  function RefreshKeys(st: State, key: string): set<string> {
    if key != "" then {key} else st.discoveryData.Keys
  }

  /** The entries a refresh of `keys` writes: the keys whose `RefreshedEntry` is present. */
  function Updates(enableOf: string -> Option<bool>, env: string, t: Tree, keys: set<string>): (u: map<string, set<string>>)
    ensures forall k :: k in u <==> k in keys && EnabledAddresses(enableOf, env, t, k) != {}
    ensures forall k :: k in u ==> u[k] == EnabledAddresses(enableOf, env, t, k)
  {
    map k | k in keys && RefreshedEntry(enableOf, env, t, k).Some? :: RefreshedEntry(enableOf, env, t, k).value
  }

  /**
    `refreshDiscoveryData(key)`: each visited key whose enabled set is non-empty has
    its entry replaced by that set; every other entry, including a visited key with
    nothing enabled, is left as it was.
   */
  function RefreshDiscoveryData(enableOf: string -> Option<bool>, st: State, key: string): (r: State)
    ensures r.env == st.env && r.store == st.store && r.registryData == st.registryData
    ensures forall k :: k in r.discoveryData <==>
              k in st.discoveryData || (k in RefreshKeys(st, key) && EnabledAddresses(enableOf, st.env, st.store, k) != {})
    ensures key == "" ==> r.discoveryData.Keys == st.discoveryData.Keys
    ensures forall k :: k in RefreshKeys(st, key) && EnabledAddresses(enableOf, st.env, st.store, k) != {} ==>
              r.discoveryData[k] == EnabledAddresses(enableOf, st.env, st.store, k)
    ensures forall k :: k in st.discoveryData && !(k in RefreshKeys(st, key) && EnabledAddresses(enableOf, st.env, st.store, k) != {}) ==>
              r.discoveryData[k] == st.discoveryData[k]
  {
    st.(discoveryData := st.discoveryData + Updates(enableOf, st.env, st.store, RefreshKeys(st, key)))
  }

  /**
    A refresh replaces, it does not merge: a cached address that is no longer an
    enabled child is dropped as soon as the key has any enabled child.
   */
  lemma RefreshReplacesEntry(enableOf: string -> Option<bool>, st: State, serviceKey: string, stale: string)
    requires serviceKey != ""
    requires EnabledAddresses(enableOf, st.env, st.store, serviceKey) != {}
    requires !IsEnabledAddress(enableOf, st.env, st.store, serviceKey, stale)
    ensures stale !in RefreshDiscoveryData(enableOf, st, serviceKey).discoveryData[serviceKey]
  {
    EnabledAddressesMeaning(enableOf, st.env, st.store, serviceKey);
  }

  /**
    The early return keeps stale entries: with the whole service gone from the store,
    a refresh still leaves the cached address in place.
   */
  lemma StaleEntrySurvivesRefresh(enableOf: string -> Option<bool>, env: string, serviceKey: string, address: string)
    requires serviceKey != ""
    ensures var st := State(env, map[], map[], map[serviceKey := {address}]);
      RefreshDiscoveryData(enableOf, st, serviceKey).discoveryData[serviceKey] == {address}
  {
    var st := State(env, map[], map[], map[serviceKey := {address}]);
    assert EnabledAddresses(enableOf, env, map[], serviceKey) == {};
  }

  /** Writing the same entries twice is writing them once. */
  lemma OverwriteTwice<K, V>(m: map<K, V>, u: map<K, V>)
    ensures (m + u) + u == m + u
  {
  }

  /** A refresh writes only keys it visits, so the keys it visits are the same afterwards. */
  lemma RefreshKeysOfOverwrite(st: State, u: map<string, set<string>>, key: string)
    requires u.Keys <= RefreshKeys(st, key)
    ensures RefreshKeys(st.(discoveryData := st.discoveryData + u), key) == RefreshKeys(st, key)
  {
  }

  /** Refreshing twice in a row is the same as refreshing once. */
  lemma RefreshIsIdempotent(enableOf: string -> Option<bool>, st: State, key: string)
    ensures RefreshDiscoveryData(enableOf, RefreshDiscoveryData(enableOf, st, key), key)
         == RefreshDiscoveryData(enableOf, st, key)
  {
    var u := Updates(enableOf, st.env, st.store, RefreshKeys(st, key));
    var once := st.(discoveryData := st.discoveryData + u);
    RefreshKeysOfOverwrite(st, u, key);
    OverwriteTwice(st.discoveryData, u);
  }

  /**
    `listener(path)`: the service key parsed from an event path is refreshed; an
    unparseable path changes nothing. The store and `registryData` are never
    touched. A parsed non-empty key has its entry replaced by its enabled set, when
    that is non-empty, and no other entry changes. A parsed empty key (a path with
    an empty segment after the environment) reaches `refreshDiscoveryData` as an
    empty string, which refreshes every cached key and adds none.
   */
  function Listener(enableOf: string -> Option<bool>, st: State, path: string): (r: State)
    ensures r.env == st.env && r.store == st.store && r.registryData == st.registryData
    ensures GetRegisterCenterData(st.env, path).None? ==> r.discoveryData == st.discoveryData
    ensures GetRegisterCenterData(st.env, path).Some? && GetRegisterCenterData(st.env, path).value.serviceKey != "" ==>
              var key := GetRegisterCenterData(st.env, path).value.serviceKey;
              && (forall k :: k != key ==> (k in r.discoveryData <==> k in st.discoveryData))
              && (forall k :: k != key && k in st.discoveryData ==> r.discoveryData[k] == st.discoveryData[k])
              && (EnabledAddresses(enableOf, st.env, st.store, key) != {} ==>
                    key in r.discoveryData && r.discoveryData[key] == EnabledAddresses(enableOf, st.env, st.store, key))
              && (EnabledAddresses(enableOf, st.env, st.store, key) == {} ==> r.discoveryData == st.discoveryData)
    ensures GetRegisterCenterData(st.env, path).Some? && GetRegisterCenterData(st.env, path).value.serviceKey == "" ==>
              && r.discoveryData.Keys == st.discoveryData.Keys
              && (forall k :: k in st.discoveryData ==>
                    r.discoveryData[k] == if EnabledAddresses(enableOf, st.env, st.store, k) != {}
                                          then EnabledAddresses(enableOf, st.env, st.store, k)
                                          else st.discoveryData[k])
  {
    match GetRegisterCenterData(st.env, path)
    case None => st
    case Some(d) =>
      if d.serviceKey != "" then
        RefreshOfOneKey(enableOf, st, d.serviceKey);
        if EnabledAddresses(enableOf, st.env, st.store, d.serviceKey) == {} then
          RefreshOfDisabledKey(enableOf, st, d.serviceKey);
          RefreshDiscoveryData(enableOf, st, d.serviceKey)
        else RefreshDiscoveryData(enableOf, st, d.serviceKey)
      else RefreshOfEmptyKey(enableOf, st); RefreshDiscoveryData(enableOf, st, "")
  }

  /**
    A path with an empty segment right after the environment parses to the empty
    service key, so `listener` treats it as a refresh of every cached key.
   */
  lemma EmptyKeyPathParses(env: string, address: string)
    requires IsSegment(address)
    ensures GetRegisterCenterData(env, EnvPath(env) + "//" + address) == Some(RegisterCenterData("", address))
  {
    var path := EnvPath(env) + "//" + address;
    var rest := path[|EnvPath(env)| + 1..];
    assert rest == "" + ['/'] + address;
    FieldsOfPrefix("", '/', address);
    FieldsOfPlain(address, '/');
    var f := Fields(rest, '/');
    assert f == ["", address];
    DropTrailingEmptyKeeps(f, 1);
    assert Split(rest, '/')[..2] == ["", address];
  }

  /**
    An event on an address node (or below it) touches the cache entry of that
    node's service key and no other.
   */
  lemma ListenerRefreshesOnlyItsKey(enableOf: string -> Option<bool>, st: State, serviceKey: string, address: string, tail: string)
    requires IsSegment(serviceKey) && IsSegment(address)
    requires tail == "" || tail[0] == '/'
    ensures var r := Listener(enableOf, st, AddressPath(st.env, serviceKey, address) + tail);
      && r.store == st.store && r.registryData == st.registryData
      && (forall k :: k != serviceKey ==> (k in r.discoveryData <==> k in st.discoveryData))
      && (forall k :: k != serviceKey && k in st.discoveryData ==> r.discoveryData[k] == st.discoveryData[k])
      && (EnabledAddresses(enableOf, st.env, st.store, serviceKey) != {} ==>
            serviceKey in r.discoveryData
            && r.discoveryData[serviceKey] == EnabledAddresses(enableOf, st.env, st.store, serviceKey))
  {
    var path := AddressPath(st.env, serviceKey, address) + tail;
    assert Listener(enableOf, st, path) == RefreshDiscoveryData(enableOf, st, serviceKey) by {
      ParseAddressPath(st.env, serviceKey, address, tail);
    }
    RefreshOfOneKey(enableOf, st, serviceKey);
  }

  /** A refresh of one non-empty key writes that key's entry, when it has enabled addresses, and no other. */
  lemma RefreshOfOneKey(enableOf: string -> Option<bool>, st: State, serviceKey: string)
    requires serviceKey != ""
    ensures var r := RefreshDiscoveryData(enableOf, st, serviceKey);
      && r.store == st.store && r.registryData == st.registryData
      && (forall k :: k != serviceKey ==> (k in r.discoveryData <==> k in st.discoveryData))
      && (forall k :: k != serviceKey && k in st.discoveryData ==> r.discoveryData[k] == st.discoveryData[k])
      && (EnabledAddresses(enableOf, st.env, st.store, serviceKey) != {} ==>
            serviceKey in r.discoveryData
            && r.discoveryData[serviceKey] == EnabledAddresses(enableOf, st.env, st.store, serviceKey))
  {
    assert RefreshKeys(st, serviceKey) == {serviceKey};
  }

  /** A refresh of one key with nothing enabled leaves the whole cache as it was. */
  lemma RefreshOfDisabledKey(enableOf: string -> Option<bool>, st: State, serviceKey: string)
    requires serviceKey != "" && EnabledAddresses(enableOf, st.env, st.store, serviceKey) == {}
    ensures RefreshDiscoveryData(enableOf, st, serviceKey).discoveryData == st.discoveryData
  {
    var u := Updates(enableOf, st.env, st.store, RefreshKeys(st, serviceKey));
    assert u == map[];
  }

  /** A refresh of the empty key rewrites every cached key that has enabled addresses, and adds no key. */
  lemma RefreshOfEmptyKey(enableOf: string -> Option<bool>, st: State)
    ensures var r := RefreshDiscoveryData(enableOf, st, "");
      && r.discoveryData.Keys == st.discoveryData.Keys
      && (forall k :: k in st.discoveryData ==>
            r.discoveryData[k] == if EnabledAddresses(enableOf, st.env, st.store, k) != {}
                                  then EnabledAddresses(enableOf, st.env, st.store, k)
                                  else st.discoveryData[k])
  {
    assert RefreshKeys(st, "") == st.discoveryData.Keys;
  }

  /** The `DataListener` `init` installs: creation, change and deletion all call `listener(path)`. */
  function WatchListener(enableOf: string -> Option<bool>): (r: CuratorListener.DataListener<State>)
    ensures r.add.Some? && r.update.Some? && r.delete.Some?
    ensures forall s, p, d :: r.add.value(s, p, d) == Listener(enableOf, s, p)
    ensures forall s, p, o, n :: r.update.value(s, p, o, n) == Listener(enableOf, s, p)
    ensures forall s, p, d :: r.delete.value(s, p, d) == Listener(enableOf, s, p)
  {
    CuratorListener.DataListener(
      Some((s: State, p: string, d: string) => Listener(enableOf, s, p)),
      Some((s: State, p: string, o: string, n: string) => Listener(enableOf, s, p)),
      Some((s: State, p: string, d: string) => Listener(enableOf, s, p)))
  }

  /** A cache event on the environment subtree, as delivered to the installed listener. */
  function OnEvent(enableOf: string -> Option<bool>, st: State, kind: CuratorListener.EventType,
                   oldData: Option<CuratorListener.ChildData>, data: Option<CuratorListener.ChildData>): (r: State)
    requires CuratorListener.WellFormedEvent(kind, oldData, data)
    ensures kind == CuratorListener.NodeCreated ==> r == Listener(enableOf, st, data.value.path)
    ensures kind != CuratorListener.NodeCreated ==> r == Listener(enableOf, st, oldData.value.path)
  {
    CuratorListener.Dispatch(WatchListener(enableOf), CuratorListener.Event(kind, oldData, data), st)
  }

  // ---------------------------------------------------------------------------
  // Registration
  // ---------------------------------------------------------------------------

  /** The address set recorded for a key, empty when there is none. */
  function Registered(reg: map<string, set<string>>, serviceKey: string): set<string> {
    if serviceKey in reg then reg[serviceKey] else {}
  }

  /**
    The nodes the private `registry(serviceKey, addressSet)` asserts for the given
    keys: one per recorded address of each non-empty key.
   */
  function AssertedPaths(env: string, reg: map<string, set<string>>, keys: set<string>): set<Path> {
    set k, a | k in keys && k in reg && k != "" && a in reg[k] :: AddressPath(env, k, a)
  }

  /** The address paths of one key, in the order of `addresses`. */
  function AddressPathsInOrder(env: string, serviceKey: string, addresses: seq<string>): (r: seq<Path>)
    ensures |r| == |addresses|
    ensures forall i :: 0 <= i < |r| ==> r[i] == AddressPath(env, serviceKey, addresses[i])
  {
    seq(|addresses|, i requires 0 <= i < |addresses| => AddressPath(env, serviceKey, addresses[i]))
  }

  /**
    The private `registry(serviceKey, addressSet)` as Java runs it: nothing for an
    empty key, otherwise `createNode` of each address node, ephemeral with the
    enabled payload, in the walk order of the `TreeSet` (`addresses`, ascending).
   */
  function RegistryOfKeyInOrder(t: Tree, env: string, serviceKey: string, addresses: seq<string>): (r: Tree)
    ensures serviceKey == "" ==> r == t
    ensures forall q :: q in t ==> q in r && r[q] == t[q]
    ensures forall q :: q in r && q !in t ==>
              exists i :: 0 <= i < |addresses| && InSubtree(q, AddressPath(env, serviceKey, addresses[i]))
  {
    if serviceKey == "" then t
    else
      var ps := AddressPathsInOrder(env, serviceKey, addresses);
      var r := CreateEach(t, ps, ENABLED_PAYLOAD, Ephemeral);
      assert forall q :: q in r && q !in t ==>
               exists i :: 0 <= i < |addresses| && InSubtree(q, AddressPath(env, serviceKey, addresses[i])) by {
        forall q | q in r && q !in t
          ensures exists i :: 0 <= i < |addresses| && InSubtree(q, AddressPath(env, serviceKey, addresses[i]))
        {
          var i :| 0 <= i < |ps| && InSubtree(q, ps[i]);
          assert ps[i] == AddressPath(env, serviceKey, addresses[i]);
        }
      }
      r
  }

  /** An address node at or below another address node of the same key extends its name. */
  lemma NestedAddressExtends(env: string, serviceKey: string, a: string, c: string)
    requires InSubtree(AddressPath(env, serviceKey, a), AddressPath(env, serviceKey, c))
    ensures a == c || (|a| < |c| && c[..|a|] == a)
  {
    var prefix := ServiceKeyToPath(env, serviceKey) + "/";
    assert AddressPath(env, serviceKey, a) == prefix + a;
    assert AddressPath(env, serviceKey, c) == prefix + c;
    if AddressPath(env, serviceKey, a) == AddressPath(env, serviceKey, c) {
      assert (prefix + a)[|prefix|..] == a;
      assert (prefix + c)[|prefix|..] == c;
    } else {
      assert (prefix + c)[..|prefix| + |a|] == prefix + a;
      assert (prefix + c)[..|prefix| + |a|][|prefix|..] == c[..|a|];
      assert (prefix + a)[|prefix|..] == a;
    }
  }

  /**
    Within one key, the ascending walk never creates anything below an address node
    that was absent at the start. An address sorts before every address that extends
    it, so an absent address node is handled before anything below it: it is
    created as an ephemeral node, which ZooKeeper gives no children, or refused,
    because it is malformed or already lies below an ephemeral node. With addresses
    `a` and `a/b` and neither node present, `a/b` is never created.
   */
  lemma AscendingWalkCreatesNothingBelow(t: Tree, env: string, serviceKey: string, addresses: seq<string>, i: nat)
    requires Ascending(addresses) && i < |addresses|
    requires AddressPath(env, serviceKey, addresses[i]) !in t
    ensures forall q :: IsAncestor(AddressPath(env, serviceKey, addresses[i]), q) && q !in t ==>
              q !in RegistryOfKeyInOrder(t, env, serviceKey, addresses)
  {
    if serviceKey != "" {
      var ps := AddressPathsInOrder(env, serviceKey, addresses);
      forall j | 0 <= j < i
        ensures !InSubtree(ps[i], ps[j])
      {
        if InSubtree(ps[i], ps[j]) {
          NestedAddressExtends(env, serviceKey, addresses[i], addresses[j]);
          if addresses[i] != addresses[j] {
            ProperPrefixIsLess(addresses[i], addresses[j]);
          }
          LessAsymmetric(addresses[j], addresses[i]);
          assert false;
        }
      }
      EphemeralWalkCreatesNothingBelow(t, ps, ENABLED_PAYLOAD, i);
    }
  }

  /**
    `registry(serviceKeys, address)`: false and no change when either argument is
    empty; otherwise `address` joins the desired set of every key, every address of
    those keys is asserted as an ephemeral `{"enable":true}` node, and the answer is
    true. Existing nodes are never modified. The nodes are created in any order,
    which covers Java's: keys in the order of the caller's set, and each key's
    addresses in ascending `TreeSet` order (`RegistryOfKeyInOrder`).
   */
  method Registry(st: State, serviceKeys: set<string>, address: string) returns (r: State, ok: bool)
    ensures ok <==> serviceKeys != {} && address != ""
    ensures !ok ==> r == st
    ensures r.env == st.env && r.discoveryData == st.discoveryData
    ensures ok ==> r.registryData.Keys == st.registryData.Keys + serviceKeys
    ensures ok ==> forall k :: k in serviceKeys ==> r.registryData[k] == Registered(st.registryData, k) + {address}
    ensures forall k :: k in st.registryData && k !in serviceKeys ==> r.registryData[k] == st.registryData[k]
    ensures ok ==> forall p ::
              (p in AssertedPaths(r.env, r.registryData, serviceKeys)
               && SafeInBatch(st.store, AssertedPaths(r.env, r.registryData, serviceKeys), Ephemeral, p)) ==>
              p in r.store
    ensures forall q :: q in st.store ==> q in r.store && r.store[q] == st.store[q]
    ensures forall q :: q in r.store && q !in st.store ==>
              exists p :: p in AssertedPaths(r.env, r.registryData, serviceKeys) && InSubtree(q, p)
    ensures forall q :: q in r.store && q !in st.store ==> !UnderEphemeral(st.store, q)
    ensures forall p ::
              (p in AssertedPaths(r.env, r.registryData, serviceKeys) && p in r.store && p !in st.store
               && NoDescendantIn(AssertedPaths(r.env, r.registryData, serviceKeys), p)) ==>
              r.store[p] == Node(ENABLED_PAYLOAD, Ephemeral)
    ensures WellFormed(st.store) ==> WellFormed(r.store)
  {
    if serviceKeys == {} || address == "" {
      return st, false;
    }
    var reg := map k | k in st.registryData.Keys + serviceKeys ::
      if k in serviceKeys then Registered(st.registryData, k) + {address} else st.registryData[k];
    var paths := AssertedPaths(st.env, reg, serviceKeys);
    var t := CreateAll(st.store, paths, ENABLED_PAYLOAD, Ephemeral);
    r := st.(store := t, registryData := reg);
    ok := true;
  }

  /**
    `refreshRegistryData`: re-assert every desired (serviceKey, address) node.
    Afterwards each of them exists; the desired set and the cache are untouched and
    no existing node changes.
   */
  method RefreshRegistryData(st: State) returns (r: State)
    ensures r.env == st.env && r.registryData == st.registryData && r.discoveryData == st.discoveryData
    ensures forall p ::
              (p in AssertedPaths(r.env, r.registryData, r.registryData.Keys)
               && SafeInBatch(st.store, AssertedPaths(r.env, r.registryData, r.registryData.Keys), Ephemeral, p)) ==>
              p in r.store
    ensures forall q :: q in st.store ==> q in r.store && r.store[q] == st.store[q]
    ensures forall q :: q in r.store && q !in st.store ==>
              exists p :: p in AssertedPaths(r.env, r.registryData, r.registryData.Keys) && InSubtree(q, p)
    ensures forall q :: q in r.store && q !in st.store ==> !UnderEphemeral(st.store, q)
    ensures WellFormed(st.store) ==> WellFormed(r.store)
  {
    var paths := AssertedPaths(st.env, st.registryData, st.registryData.Keys);
    var t := CreateAll(st.store, paths, ENABLED_PAYLOAD, Ephemeral);
    r := st.(store := t);
  }

  /** The address nodes `remove(serviceKeys, address)` deletes, one per key. */
  function RemovedPaths(env: string, serviceKeys: set<string>, address: string): set<Path> {
    set k | k in serviceKeys :: AddressPath(env, k, address)
  }

  /**
    `remove(serviceKeys, address)`: for each key, drop `address` from the cached set
    and delete its node (with anything below it). The desired set is left alone and
    the answer is always true.
   */
  method Remove(st: State, serviceKeys: set<string>, address: string) returns (r: State, ok: bool)
    ensures ok
    ensures r.env == st.env && r.registryData == st.registryData
    ensures r.discoveryData.Keys == st.discoveryData.Keys
    ensures forall k :: k in st.discoveryData ==>
              r.discoveryData[k] == if k in serviceKeys then st.discoveryData[k] - {address} else st.discoveryData[k]
    ensures forall k :: k in serviceKeys ==> !CheckExists(r.store, AddressPath(st.env, k, address))
    ensures forall q :: q in r.store <==> q in st.store && !DeletedBy(st.store, RemovedPaths(st.env, serviceKeys, address), q)
    ensures forall q :: q in r.store ==> r.store[q] == st.store[q]
    ensures WellFormed(st.store) ==> WellFormed(r.store)
  {
    var disc := map k | k in st.discoveryData ::
      if k in serviceKeys then st.discoveryData[k] - {address} else st.discoveryData[k];
    var t := DeleteAll(st.store, RemovedPaths(st.env, serviceKeys, address));
    r := st.(store := t, discoveryData := disc);
    ok := true;
  }

  // ---------------------------------------------------------------------------
  // Discovery
  // ---------------------------------------------------------------------------

  /**
    `discovery(serviceKey)`: a non-empty cached set is returned as it is; otherwise
    the key is refreshed first and whatever is cached then is returned (`None` for
    Java's `null`). The empty key `""` refreshes every cached key. A `null` key
    is not modelled: `ConcurrentHashMap.get` throws on it before any refresh.
   */
  function Discovery(enableOf: string -> Option<bool>, st: State, serviceKey: string): (r: (State, Option<set<string>>))
    ensures serviceKey in st.discoveryData && st.discoveryData[serviceKey] != {} ==>
              r == (st, Some(st.discoveryData[serviceKey]))
    ensures r.0.env == st.env && r.0.store == st.store && r.0.registryData == st.registryData
    ensures serviceKey != "" ==> forall k :: k != serviceKey ==>
              (k in r.0.discoveryData <==> k in st.discoveryData)
              && (k in st.discoveryData ==> r.0.discoveryData[k] == st.discoveryData[k])
    ensures serviceKey != "" && !(serviceKey in st.discoveryData && st.discoveryData[serviceKey] != {})
            && EnabledAddresses(enableOf, st.env, st.store, serviceKey) != {} ==>
              r.1 == Some(EnabledAddresses(enableOf, st.env, st.store, serviceKey))
    ensures serviceKey != "" && EnabledAddresses(enableOf, st.env, st.store, serviceKey) == {} ==>
              r.0 == st && r.1 == (if serviceKey in st.discoveryData then Some(st.discoveryData[serviceKey]) else None)
    ensures r.1.Some? ==> serviceKey in r.0.discoveryData && r.1.value == r.0.discoveryData[serviceKey]
    ensures serviceKey == "" && !("" in st.discoveryData && st.discoveryData[""] != {}) ==>
              && r.0.discoveryData.Keys == st.discoveryData.Keys
              && (forall k :: k in st.discoveryData ==>
                    r.0.discoveryData[k] == if EnabledAddresses(enableOf, st.env, st.store, k) != {}
                                            then EnabledAddresses(enableOf, st.env, st.store, k)
                                            else st.discoveryData[k])
              && (r.1.Some? <==> "" in st.discoveryData)
  {
    if serviceKey in st.discoveryData && st.discoveryData[serviceKey] != {} then
      (st, Some(st.discoveryData[serviceKey]))
    else
      var refreshed := RefreshDiscoveryData(enableOf, st, serviceKey);
      var answer := if serviceKey in refreshed.discoveryData then Some(refreshed.discoveryData[serviceKey]) else None;
      if serviceKey == "" then
        RefreshOfEmptyKey(enableOf, st);
        (refreshed, answer)
      else
        RefreshOfOneKey(enableOf, st, serviceKey);
        if EnabledAddresses(enableOf, st.env, st.store, serviceKey) == {} then
          RefreshOfDisabledKey(enableOf, st, serviceKey);
          (refreshed, answer)
        else (refreshed, answer)
  }

  /**
    What `discovery(k)` answers for a non-empty key, read off the state before the
    call: the cached set when it is non-empty, else the enabled addresses when there
    are any, else the (empty) cached set if there is one.
   */
  function AloneAnswer(enableOf: string -> Option<bool>, st: State, k: string): Option<set<string>>
  {
    if k in st.discoveryData && st.discoveryData[k] != {} then Some(st.discoveryData[k])
    else if EnabledAddresses(enableOf, st.env, st.store, k) != {} then Some(EnabledAddresses(enableOf, st.env, st.store, k))
    else if k in st.discoveryData then Some(st.discoveryData[k])
    else None
  }

  /** `discovery(k)` of a non-empty key answers `AloneAnswer` and leaves exactly that answer cached for `k`. */
  lemma DiscoveryIsAloneAnswer(enableOf: string -> Option<bool>, st: State, k: string)
    requires k != ""
    ensures Discovery(enableOf, st, k).1 == AloneAnswer(enableOf, st, k)
    ensures k in Discovery(enableOf, st, k).0.discoveryData <==> AloneAnswer(enableOf, st, k).Some?
    ensures k in Discovery(enableOf, st, k).0.discoveryData ==>
              Discovery(enableOf, st, k).0.discoveryData[k] == AloneAnswer(enableOf, st, k).value
  {
    RefreshOfOneKey(enableOf, st, k);
  }

  /** `found` holds, for each key of `done`, exactly the non-empty answers of `discovery` of that key alone. */
  ghost predicate FoundAsAlone(enableOf: string -> Option<bool>, st: State, found: map<string, set<string>>, done: set<string>)
  {
    forall k :: k in done ==>
      && (k in found <==> AloneAnswer(enableOf, st, k).Some? && AloneAnswer(enableOf, st, k).value != {})
      && (k in found ==> found[k] == AloneAnswer(enableOf, st, k).value)
  }

  /**
    The cache of `r` holds, for each key of `done`, the entry `discovery` of that key
    alone leaves, and every other key's entry is as in `st`.
   */
  ghost predicate CachedAsAlone(enableOf: string -> Option<bool>, st: State, r: State, done: set<string>)
  {
    && (forall k :: k in done ==>
          && (k in r.discoveryData <==> AloneAnswer(enableOf, st, k).Some?)
          && (k in r.discoveryData ==> r.discoveryData[k] == AloneAnswer(enableOf, st, k).value))
    && (forall k :: k !in done ==>
          && (k in r.discoveryData <==> k in st.discoveryData)
          && (k in st.discoveryData ==> r.discoveryData[k] == st.discoveryData[k]))
  }

  /** One more key looked up, answering `ans`: the answers kept extend to it. */
  lemma FoundStep(enableOf: string -> Option<bool>, st: State, found: map<string, set<string>>,
                  done: set<string>, k: string, ans: Option<set<string>>)
    requires k !in done && found.Keys <= done
    requires FoundAsAlone(enableOf, st, found, done)
    requires ans == AloneAnswer(enableOf, st, k)
    ensures FoundAsAlone(enableOf, st, if ans.Some? && ans.value != {} then found[k := ans.value] else found, done + {k})
  {
    var found' := if ans.Some? && ans.value != {} then found[k := ans.value] else found;
    forall x | x in done + {k}
      ensures && (x in found' <==> AloneAnswer(enableOf, st, x).Some? && AloneAnswer(enableOf, st, x).value != {})
              && (x in found' ==> found'[x] == AloneAnswer(enableOf, st, x).value)
    {
      if x != k {
        assert x in done;
      }
    }
  }

  /** One more key looked up, leaving `r'`: the cache entries extend to it. */
  lemma CachedStep(enableOf: string -> Option<bool>, st: State, r: State, r': State, done: set<string>, k: string)
    requires k !in done
    requires CachedAsAlone(enableOf, st, r, done)
    requires k in r'.discoveryData <==> AloneAnswer(enableOf, st, k).Some?
    requires k in r'.discoveryData ==> r'.discoveryData[k] == AloneAnswer(enableOf, st, k).value
    requires forall x :: x != k ==>
               && (x in r'.discoveryData <==> x in r.discoveryData)
               && (x in r.discoveryData ==> r'.discoveryData[x] == r.discoveryData[x])
    ensures CachedAsAlone(enableOf, st, r', done + {k})
  {
  }

  /** The loop's agreements, restated as `discovery` of each key alone. */
  lemma AloneAnswersAreDiscovery(enableOf: string -> Option<bool>, st: State, r: State,
                                 found: map<string, set<string>>, keys: set<string>)
    requires "" !in keys
    requires FoundAsAlone(enableOf, st, found, keys) && CachedAsAlone(enableOf, st, r, keys)
    ensures forall k :: k in keys ==>
              && (k in found <==> Discovery(enableOf, st, k).1.Some? && Discovery(enableOf, st, k).1.value != {})
              && (k in found ==> found[k] == Discovery(enableOf, st, k).1.value)
    ensures forall k :: k in keys ==>
              && (k in r.discoveryData <==> k in Discovery(enableOf, st, k).0.discoveryData)
              && (k in r.discoveryData ==> r.discoveryData[k] == Discovery(enableOf, st, k).0.discoveryData[k])
  {
    forall k | k in keys
      ensures && (k in found <==> Discovery(enableOf, st, k).1.Some? && Discovery(enableOf, st, k).1.value != {})
              && (k in found ==> found[k] == Discovery(enableOf, st, k).1.value)
              && (k in r.discoveryData <==> k in Discovery(enableOf, st, k).0.discoveryData)
              && (k in r.discoveryData ==> r.discoveryData[k] == Discovery(enableOf, st, k).0.discoveryData[k])
    {
      DiscoveryIsAloneAnswer(enableOf, st, k);
    }
  }

  /**
    `discovery(serviceKeys)`: an empty map for no keys; otherwise `discovery` of
    each key in turn (in the set's unspecified order), keeping the keys whose answer
    is a non-empty set. Without the empty key among them, each key gets exactly the
    answer and the cache entry that `discovery` of that key alone would give, so the
    order does not matter.
   */
  method DiscoveryMany(enableOf: string -> Option<bool>, st: State, serviceKeys: set<string>)
    returns (r: State, found: map<string, set<string>>)
    ensures serviceKeys == {} ==> r == st && found == map[]
    ensures r.env == st.env && r.store == st.store && r.registryData == st.registryData
    ensures found.Keys <= serviceKeys
    ensures forall k :: k in found ==> found[k] != {}
    ensures "" !in serviceKeys ==> forall k :: k in serviceKeys ==>
              && (k in found <==> Discovery(enableOf, st, k).1.Some? && Discovery(enableOf, st, k).1.value != {})
              && (k in found ==> found[k] == Discovery(enableOf, st, k).1.value)
    ensures "" !in serviceKeys ==> forall k :: k in serviceKeys ==>
              && (k in r.discoveryData <==> k in Discovery(enableOf, st, k).0.discoveryData)
              && (k in r.discoveryData ==> r.discoveryData[k] == Discovery(enableOf, st, k).0.discoveryData[k])
    ensures "" !in serviceKeys ==> forall k :: k !in serviceKeys ==>
              && (k in r.discoveryData <==> k in st.discoveryData)
              && (k in st.discoveryData ==> r.discoveryData[k] == st.discoveryData[k])
  {
    r := st;
    found := map[];
    if serviceKeys == {} {
      return;
    }
    var todo := serviceKeys;
    while todo != {}
      invariant todo <= serviceKeys
      invariant r.env == st.env && r.store == st.store && r.registryData == st.registryData
      invariant found.Keys <= serviceKeys - todo
      invariant forall k :: k in found ==> found[k] != {}
      invariant "" !in serviceKeys ==>
                  FoundAsAlone(enableOf, st, found, serviceKeys - todo) && CachedAsAlone(enableOf, st, r, serviceKeys - todo)
      decreases todo
    {
      var k :| k in todo;
      var step := Discovery(enableOf, r, k);
      if "" !in serviceKeys {
        DiscoveryIsAloneAnswer(enableOf, r, k);
        assert AloneAnswer(enableOf, r, k) == AloneAnswer(enableOf, st, k);
        FoundStep(enableOf, st, found, serviceKeys - todo, k, step.1);
        CachedStep(enableOf, st, r, step.0, serviceKeys - todo, k);
        assert serviceKeys - (todo - {k}) == (serviceKeys - todo) + {k};
      }
      r := step.0;
      if step.1.Some? && step.1.value != {} {
        found := found[k := step.1.value];
      }
      todo := todo - {k};
    }
    if "" !in serviceKeys {
      AloneAnswersAreDiscovery(enableOf, st, r, found, serviceKeys);
    }
  }

  // ---------------------------------------------------------------------------
  // The periodic task and scenarios built from the operations
  // ---------------------------------------------------------------------------

  /**
    One run of the scheduled task: `refreshDiscoveryData(null)` then
    `refreshRegistryData()`. Cached keys are refreshed against the store as it was
    before re-registration, no key is added, and every desired node exists afterwards.
   */
  method PeriodicTick(enableOf: string -> Option<bool>, st: State) returns (r: State)
    ensures r.env == st.env && r.registryData == st.registryData
    ensures r.discoveryData.Keys == st.discoveryData.Keys
    ensures forall k :: k in st.discoveryData ==>
              r.discoveryData[k] == if EnabledAddresses(enableOf, st.env, st.store, k) != {}
                                    then EnabledAddresses(enableOf, st.env, st.store, k)
                                    else st.discoveryData[k]
    ensures forall p ::
              (p in AssertedPaths(r.env, r.registryData, r.registryData.Keys)
               && SafeInBatch(st.store, AssertedPaths(r.env, r.registryData, r.registryData.Keys), Ephemeral, p)) ==>
              p in r.store
    ensures forall q :: q in st.store ==> q in r.store && r.store[q] == st.store[q]
    ensures forall q :: q in r.store && q !in st.store ==>
              exists p :: p in AssertedPaths(r.env, r.registryData, r.registryData.Keys) && InSubtree(q, p)
    ensures forall q :: q in r.store && q !in st.store ==> !UnderEphemeral(st.store, q)
    ensures WellFormed(st.store) ==> WellFormed(r.store)
  {
    var refreshed := RefreshDiscoveryData(enableOf, st, "");
    r := RefreshRegistryData(refreshed);
  }

  /**
    `remove` does not prune the desired set, so the next `refreshRegistryData`
    re-creates every removed node that is still desired.
   */
  method RemoveThenReassert(st: State, serviceKeys: set<string>, address: string) returns (r: State)
    ensures r.registryData == st.registryData
    ensures forall k ::
              (k in serviceKeys && k in st.registryData && k != "" && address in st.registryData[k]
               && ValidPath(AddressPath(st.env, k, address)) && !UnderEphemeral(st.store, AddressPath(st.env, k, address))
               && NoAncestorIn(AssertedPaths(st.env, st.registryData, st.registryData.Keys), AddressPath(st.env, k, address))) ==>
              AddressPath(st.env, k, address) in r.store
  {
    var removed, _ := Remove(st, serviceKeys, address);
    r := RefreshRegistryData(removed);
    forall k |
      (k in serviceKeys && k in st.registryData && k != "" && address in st.registryData[k]
       && ValidPath(AddressPath(st.env, k, address)) && !UnderEphemeral(st.store, AddressPath(st.env, k, address))
       && NoAncestorIn(AssertedPaths(st.env, st.registryData, st.registryData.Keys), AddressPath(st.env, k, address)))
      ensures AddressPath(st.env, k, address) in r.store
    {
      var p := AddressPath(st.env, k, address);
      assert p in AssertedPaths(st.env, st.registryData, st.registryData.Keys);
      FewerNodesNotUnderEphemeral(st.store, removed.store, p);
      assert SafeInBatch(removed.store, AssertedPaths(st.env, st.registryData, st.registryData.Keys), Ephemeral, p);
    }
  }

  /**
    Registering one new address for one new key writes its node, ephemeral with
    the enabled payload, and records the address as the key's only one.
   */
  method RegisterNewAddress(st: State, serviceKey: string, address: string) returns (r: State)
    requires WellFormed(st.store)
    requires IsNodeName(st.env) && IsNodeName(serviceKey) && IsNodeName(address)
    requires serviceKey !in st.registryData
    requires AddressPath(st.env, serviceKey, address) !in st.store
    requires !UnderEphemeral(st.store, AddressPath(st.env, serviceKey, address))
    ensures r.env == st.env && r.discoveryData == st.discoveryData && WellFormed(r.store)
    ensures serviceKey in r.registryData && r.registryData[serviceKey] == {address}
    ensures AddressPath(st.env, serviceKey, address) in r.store
    ensures r.store[AddressPath(st.env, serviceKey, address)] == Node(ENABLED_PAYLOAD, Ephemeral)
  {
    var p := AddressPath(st.env, serviceKey, address);
    assert ValidPath(p) by {
      PathsNest(st.env, serviceKey, address);
    }
    var registered, _ := Registry(st, {serviceKey}, address);
    assert registered.registryData[serviceKey] == {address};
    NewAddressNodeWritten(st, registered, serviceKey, address);
    r := registered;
  }

  /** What `registry` promises for its batch, specialised to one new address of one key. */
  lemma NewAddressNodeWritten(st: State, r: State, serviceKey: string, address: string)
    requires IsNodeName(st.env) && IsNodeName(serviceKey) && IsNodeName(address) && r.env == st.env
    requires serviceKey in r.registryData && r.registryData[serviceKey] == {address}
    requires AddressPath(st.env, serviceKey, address) !in st.store
    requires !UnderEphemeral(st.store, AddressPath(st.env, serviceKey, address))
    requires forall p ::
               (p in AssertedPaths(r.env, r.registryData, {serviceKey})
                && SafeInBatch(st.store, AssertedPaths(r.env, r.registryData, {serviceKey}), Ephemeral, p)) ==>
               p in r.store
    requires forall p ::
               (p in AssertedPaths(r.env, r.registryData, {serviceKey}) && p in r.store && p !in st.store
                && NoDescendantIn(AssertedPaths(r.env, r.registryData, {serviceKey}), p)) ==>
               r.store[p] == Node(ENABLED_PAYLOAD, Ephemeral)
    ensures AddressPath(st.env, serviceKey, address) in r.store
    ensures r.store[AddressPath(st.env, serviceKey, address)] == Node(ENABLED_PAYLOAD, Ephemeral)
  {
    var p := AddressPath(st.env, serviceKey, address);
    PathsNest(st.env, serviceKey, address);
    AssertedPathsOfOne(st.env, r.registryData, serviceKey, address);
    assert SafeInBatch(st.store, {p}, Ephemeral, p);
    assert NoDescendantIn({p}, p);
  }

  /**
    Registering a new address and then discovering its key, before any periodic
    run, finds the address: the node is written synchronously and a cache miss
    pulls from the store.
   */
  method RegistryThenDiscovery(enableOf: string -> Option<bool>, st: State, serviceKey: string, address: string)
    returns (r: State, found: Option<set<string>>)
    requires enableOf(ENABLED_PAYLOAD) == Some(true)
    requires WellFormed(st.store)
    requires IsNodeName(st.env) && IsNodeName(serviceKey) && IsNodeName(address)
    requires serviceKey !in st.registryData
    requires serviceKey !in st.discoveryData || st.discoveryData[serviceKey] == {}
    requires AddressPath(st.env, serviceKey, address) !in st.store
    requires !UnderEphemeral(st.store, AddressPath(st.env, serviceKey, address))
    ensures found.Some? && address in found.value
    ensures serviceKey in r.registryData && r.registryData[serviceKey] == {address}
  {
    var registered := RegisterNewAddress(st, serviceKey, address);
    RegisteredNodeIsEnabled(enableOf, registered, serviceKey, address);
    DiscoveryFindsEnabled(enableOf, registered, serviceKey, address);
    var step := Discovery(enableOf, registered, serviceKey);
    r, found := step.0, step.1;
  }

  /** A cache miss on a key finds every enabled address the store holds for it. */
  lemma DiscoveryFindsEnabled(enableOf: string -> Option<bool>, st: State, serviceKey: string, address: string)
    requires serviceKey != ""
    requires serviceKey !in st.discoveryData || st.discoveryData[serviceKey] == {}
    ensures address in EnabledAddresses(enableOf, st.env, st.store, serviceKey) ==>
              Discovery(enableOf, st, serviceKey).1.Some?
              && address in Discovery(enableOf, st, serviceKey).1.value
    ensures Discovery(enableOf, st, serviceKey).0.registryData == st.registryData
  {
  }

  /** A single key with a single address asserts that address's node and nothing below it. */
  lemma AssertedPathsOfOne(env: string, reg: map<string, set<string>>, serviceKey: string, address: string)
    requires serviceKey != "" && serviceKey in reg && reg[serviceKey] == {address}
    ensures AssertedPaths(env, reg, {serviceKey}) == {AddressPath(env, serviceKey, address)}
  {
    var p := AddressPath(env, serviceKey, address);
    forall x | x in AssertedPaths(env, reg, {serviceKey})
      ensures x == p
    {
    }
  }

  /** A node `registry` wrote with the enabled payload counts as an enabled address of its service. */
  lemma RegisteredNodeIsEnabled(enableOf: string -> Option<bool>, st: State, serviceKey: string, address: string)
    requires enableOf(ENABLED_PAYLOAD) == Some(true)
    requires WellFormed(st.store)
    requires IsNodeName(st.env) && IsNodeName(serviceKey) && IsNodeName(address)
    requires AddressPath(st.env, serviceKey, address) in st.store
    requires st.store[AddressPath(st.env, serviceKey, address)].data == ENABLED_PAYLOAD
    ensures address in EnabledAddresses(enableOf, st.env, st.store, serviceKey)
  {
    var p := AddressPath(st.env, serviceKey, address);
    PathsNest(st.env, serviceKey, address);
    assert ServiceKeyToPath(st.env, serviceKey) in Ancestors(p);
    assert IsEnabledAddress(enableOf, st.env, st.store, serviceKey, address);
    EnabledAddressesMeaning(enableOf, st.env, st.store, serviceKey);
  }

}

=== FILE: system_time_monitor.dfy ===
/**
  `SystemTimeMonitor`: guards against the machine clock running backwards. The last
  uploaded time lives in the persistent node `/snowflake/forever/{ip}`; `init`
  refuses to start the upload task when the stored time is ahead of the clock, and
  each upload refuses to write a time older than the last one it wrote.

  The clock reading and the host address are parameters, and "the upload task is
  scheduled" is a flag.
 */
module SystemTimeMonitor {
  import opened Optional
  import opened JavaText
  import opened ZkClient

  const PATH_FOREVER: string := "/snowflake/forever"

  /**
    The monitor's fields: the store it talks to, the host address, the node it
    writes (`None` for Java's `null`), the last time it uploaded, and whether the
    periodic upload has been scheduled.
   */
  datatype Monitor = Monitor(
    store: Tree,
    ip: string,
    zkAddressNode: Option<Path>,
    lastUpdateTime: Long,
    scheduled: bool)

  /** A freshly constructed monitor: no node yet, `lastUpdateTime` 0, nothing scheduled. */
  function NewMonitor(store: Tree, ip: string): Monitor {
    Monitor(store, ip, None, 0, false)
  }

  /**
    The monitored node of a host: a direct child of `/snowflake/forever`, and a valid
    path exactly when ZooKeeper accepts the host string as a node name.
   */
  function ListenPath(ip: string): (r: Path)
    ensures IsSegment(ip) ==> IsChild(PATH_FOREVER, r) && (ValidPath(r) <==> IsNodeName(ip))
  {
    ForeverPathIsValid();
    ChildPathFacts(PATH_FOREVER, ip);
    PATH_FOREVER + "/" + ip
  }

  /** `/snowflake/forever` is a valid path. */
  lemma ForeverPathIsValid()
    ensures ValidPath(PATH_FOREVER)
  {
    var top, name := "snowflake", "forever";
    assert PATH_FOREVER == "/" + top + "/" + name;
    assert ValidPath("/" + top) by {
      forall i | 0 <= i < |top|
        ensures !ForbiddenChar(top[i])
      {
        assert top[i] in "snowflake";
      }
      TopLevelPath(top);
    }
    assert IsNodeName(name) by {
      forall i | 0 <= i < |name|
        ensures !ForbiddenChar(name[i])
      {
        assert name[i] in "forever";
      }
    }
    ChildPathIsChild("/" + top, name);
  }

  /**
    For a host address that is a single path segment the node is
    `/snowflake/forever/{ip}`, and it is a valid path exactly when the address is a
    node name ZooKeeper accepts.
   */
  lemma ListenPathIsValid(ip: string)
    requires IsSegment(ip)
    ensures ListenPath(ip) == "/snowflake/forever/" + ip
    ensures ValidPath(ListenPath(ip)) <==> IsNodeName(ip)
  {
    ForeverPathIsValid();
    ChildPathIsChild(PATH_FOREVER, ip);
  }

  /**
    `checkTimeStamp`: whether the clock is at or past the time stored in `node`;
    `None` when the content is not a `long` (where `Long.parseLong` throws).
   */
  function CheckTimeStamp(t: Tree, node: Path, now: Long): (r: Option<bool>)
    ensures r.None? <==> ParseLong(DoGetContent(t, node)).None?
    ensures r.Some? ==> (r.value <==> now >= ParseLong(DoGetContent(t, node)).value)
    ensures !CheckExists(t, node) ==> r.None?
  {
    match ParseLong(DoGetContent(t, node))
    case None => None
    case Some(stored) => Some(now >= stored)
  }

  /**
    `init` with the clock reading `now`. The answer's second half is true when
    `init` throws because the stored content is not a number.
    - Node absent: write `now` to it (persistent) and schedule the upload; when the
      write fails the node stays `null`, and the upload is scheduled all the same.
    - Node present: remember it; schedule only if the clock is not behind the stored
      time.
   */
  function Init(m: Monitor, now: Long): (r: (Monitor, bool))
    ensures r.0.ip == m.ip && r.0.lastUpdateTime == m.lastUpdateTime
    ensures !CheckExists(m.store, ListenPath(m.ip)) ==> !r.1 && r.0.scheduled
    ensures !CheckExists(m.store, ListenPath(m.ip)) && ValidPath(ListenPath(m.ip))
            && !UnderEphemeral(m.store, ListenPath(m.ip)) ==>
              r.0.zkAddressNode == Some(ListenPath(m.ip))
              && ParseLong(DoGetContent(r.0.store, ListenPath(m.ip))) == Some(now)
              && r.0.store[ListenPath(m.ip)].mode == Persistent
    ensures !CheckExists(m.store, ListenPath(m.ip))
            && (!ValidPath(ListenPath(m.ip)) || UnderEphemeral(m.store, ListenPath(m.ip))) ==>
              r.0.zkAddressNode == None && r.0.store == m.store
    ensures CheckExists(m.store, ListenPath(m.ip)) ==>
              r.0.store == m.store && r.0.zkAddressNode == Some(ListenPath(m.ip))
              && (r.1 <==> ParseLong(DoGetContent(m.store, ListenPath(m.ip))).None?)
    ensures CheckExists(m.store, ListenPath(m.ip)) && !r.1 ==>
              (r.0.scheduled <==> m.scheduled || now >= ParseLong(DoGetContent(m.store, ListenPath(m.ip))).value)
    ensures r.1 ==> r.0.scheduled == m.scheduled
  {
    var listenPath := ListenPath(m.ip);
    if !CheckExists(m.store, listenPath) then
      var written := CreateNodeWithData(m.store, listenPath, LongToString(now), Persistent);
      ParseLongRoundTrip(now);
      (m.(store := written.0, zkAddressNode := written.1, scheduled := true), false)
    else
      var m' := m.(zkAddressNode := Some(listenPath));
      match CheckTimeStamp(m.store, listenPath, now)
      case None => (m', true)
      case Some(ok) => (m'.(scheduled := m.scheduled || ok), false)
  }

  /**
    `updateNewData` with the clock reading `now`: a clock behind `lastUpdateTime`
    changes nothing; otherwise `now` is written to the node (when there is one) and
    becomes `lastUpdateTime`.
   */
  function UpdateNewData(m: Monitor, now: Long): (r: Monitor)
    ensures now < m.lastUpdateTime ==> r == m
    ensures now >= m.lastUpdateTime ==> r.lastUpdateTime == now
    ensures r.lastUpdateTime >= m.lastUpdateTime
    ensures r.ip == m.ip && r.zkAddressNode == m.zkAddressNode && r.scheduled == m.scheduled
    ensures now >= m.lastUpdateTime && m.zkAddressNode.Some? && ValidPath(m.zkAddressNode.value)
            && (m.zkAddressNode.value in m.store || !UnderEphemeral(m.store, m.zkAddressNode.value)) ==>
              ParseLong(DoGetContent(r.store, m.zkAddressNode.value)) == Some(r.lastUpdateTime)
    ensures forall q :: q in m.store && (m.zkAddressNode.None? || q != m.zkAddressNode.value) ==>
              q in r.store && r.store[q] == m.store[q]
    ensures forall q :: q in r.store && q !in m.store ==>
              m.zkAddressNode.Some? && InSubtree(q, m.zkAddressNode.value) && !UnderEphemeral(m.store, m.zkAddressNode.value)
    ensures WellFormed(m.store) ==> WellFormed(r.store)
  {
    if now < m.lastUpdateTime then m
    else
      var store :=
        if m.zkAddressNode.Some? then CreateNodeWithData(m.store, m.zkAddressNode.value, LongToString(now), Persistent).0
        else m.store;
      assert WellFormed(m.store) ==> WellFormed(store) by {
        if WellFormed(m.store) && m.zkAddressNode.Some? {
          CreateNodeWithDataPreservesWellFormed(m.store, m.zkAddressNode.value, LongToString(now), Persistent);
        }
      }
      ParseLongRoundTrip(now);
      m.(store := store, lastUpdateTime := now)
  }

  /** The uploads at the given clock readings, in order. */
  function UpdateAll(m: Monitor, readings: seq<Long>): Monitor
    decreases |readings|
  {
    if |readings| == 0 then m
    else UpdateAll(UpdateNewData(m, readings[0]), readings[1..])
  }

  /** The larger of a start value and every reading. */
  function MaxReading(start: Long, readings: seq<Long>): Long
    decreases |readings|
  {
    if |readings| == 0 then start
    else MaxReading(if readings[0] > start then readings[0] else start, readings[1..])
  }

  /**
    Across any run of uploads `lastUpdateTime` never goes down: it ends at the
    largest of its starting value and every clock reading, so it is at least each of
    them.
   */
  lemma {:induction false} LastUpdateTimeIsMaximum(m: Monitor, readings: seq<Long>)
    ensures UpdateAll(m, readings).lastUpdateTime == MaxReading(m.lastUpdateTime, readings)
    ensures UpdateAll(m, readings).lastUpdateTime >= m.lastUpdateTime
    ensures forall i :: 0 <= i < |readings| ==> UpdateAll(m, readings).lastUpdateTime >= readings[i]
    decreases |readings|
  {
    if |readings| > 0 {
      var next := UpdateNewData(m, readings[0]);
      LastUpdateTimeIsMaximum(next, readings[1..]);
      forall i | 0 < i < |readings|
        ensures UpdateAll(m, readings).lastUpdateTime >= readings[i]
      {
        assert readings[i] == readings[1..][i - 1];
      }
    }
  }

  /**
    After an upload, a later `checkTimeStamp` on the node passes exactly when the
    clock has not gone behind the uploaded time.
   */
  lemma CheckAfterUpdate(m: Monitor, now: Long, later: Long)
    requires now >= m.lastUpdateTime
    requires m.zkAddressNode.Some? && ValidPath(m.zkAddressNode.value)
    requires m.zkAddressNode.value in m.store || !UnderEphemeral(m.store, m.zkAddressNode.value)
    ensures CheckTimeStamp(UpdateNewData(m, now).store, m.zkAddressNode.value, later) == Some(later >= now)
  {
  }

  /**
    `lastUpdateTime` starts at 0 rather than at the stored time, so the first upload
    after a successful `init` writes the clock even when it has since gone behind the
    time `init` found in the node. The store holds just that node and its container
    parents `/snowflake` and `/snowflake/forever`.
   */
  lemma FirstUploadIgnoresStoredTime(ip: string, stored: Long, atInit: Long, atUpload: Long)
    requires IsNodeName(ip)
    requires 0 <= atUpload < stored <= atInit
    ensures var store := Insert(map[], ListenPath(ip), Node(LongToString(stored), Persistent));
      var started := Init(NewMonitor(store, ip), atInit).0;
      && WellFormed(store)
      && started.scheduled
      && ParseLong(DoGetContent(UpdateNewData(started, atUpload).store, ListenPath(ip))) == Some(atUpload)
  {
    ListenPathIsValid(ip);
    ParseLongRoundTrip(stored);
    InsertPreservesWellFormed(map[], ListenPath(ip), Node(LongToString(stored), Persistent));
  }
}

=== FILE: zk_client.dfy ===
/**
  `ZkClient` over an in-memory ZooKeeper namespace: a map from absolute node path to
  the node's payload and create mode. The client is built with a Curator
  `namespace`, so every path here is relative to it: `/a` stands for the server
  node `/{namespace}/a`. The store is always reachable; the only ZooKeeper
  failures are "node exists", "no node", "no children for ephemerals" and a
  malformed path, each of which `ZkClient` catches and turns into a default
  return value.
 */
module ZkClient {
  import opened Optional

  type Path = string

  /** `CreateMode`; parents made by `creatingParentContainersIfNeeded` are containers. */
  datatype CreateMode = Persistent | Ephemeral | Container

  datatype Node = Node(data: string, mode: CreateMode)

  /** Every node of the namespace except the root, by absolute path. */
  type Tree = map<Path, Node>

  // ---------------------------------------------------------------------------
  // Paths
  // ---------------------------------------------------------------------------

  /**
    A character ZooKeeper refuses in a path: NUL, the C0 and C1 control characters,
    U+D800 to U+F8FF, U+FFF0 to U+FFFF, and anything beyond U+FFFF, which a Java
    string holds as a pair of surrogates in the refused range.
   */
  predicate ForbiddenChar(c: char) {
    var n := c as int;
    n <= 0x1F || (0x7F <= n <= 0x9F) || (0xD800 <= n <= 0xF8FF) || n >= 0xFFF0
  }

  /** The `/` at index `i` of `p` starts a segment that is `.` or `..`. */
  predicate DotSegmentAt(p: Path, i: int)
    requires 0 <= i < |p| - 1
  {
    && p[i] == '/' && p[i + 1] == '.'
    && (i + 2 == |p| || p[i + 2] == '/' || (p[i + 2] == '.' && (i + 3 == |p| || p[i + 3] == '/')))
  }

  /**
    ZooKeeper's syntax for a node below the root: a leading `/`, no trailing `/`, no
    empty, `.` or `..` segment and no forbidden character. Curator rejects anything
    else with an exception before it reaches the server.
   */
  predicate ValidPath(p: Path) {
    && |p| >= 2
    && p[0] == '/'
    && p[|p| - 1] != '/'
    && (forall i :: 0 <= i < |p| - 1 ==> !(p[i] == '/' && p[i + 1] == '/'))
    && (forall i :: 0 <= i < |p| - 1 ==> !DotSegmentAt(p, i))
    && (forall i :: 0 <= i < |p| ==> !ForbiddenChar(p[i]))
  }

  /** A piece of a path between two `/`: non-empty and free of `/`. */
  predicate IsSegment(s: string) {
    s != "" && '/' !in s
  }

  /** A segment ZooKeeper accepts as a node name: not `.` or `..`, no forbidden character. */
  predicate IsNodeName(s: string) {
    && IsSegment(s)
    && s != "." && s != ".."
    && forall i :: 0 <= i < |s| ==> !ForbiddenChar(s[i])
  }

  /** `a` is a proper ancestor of `p` (never the root). */
  predicate IsAncestor(a: Path, p: Path) {
    0 < |a| < |p| && p[..|a|] == a && p[|a|] == '/'
  }

  /** `p` is `root` or lies below it. */
  predicate InSubtree(root: Path, p: Path) {
    p == root || IsAncestor(root, p)
  }

  /** `p` is a direct child of `parent`. */
  predicate IsChild(parent: Path, p: Path) {
    IsAncestor(parent, p) && |p| > |parent| + 1 && '/' !in p[|parent| + 1..]
  }

  /** All proper ancestors of `p` except the root. */
  function Ancestors(p: Path): (r: set<Path>)
    ensures forall a :: a in r <==> IsAncestor(a, p)
  {
    var r := set i | 0 < i < |p| && p[i] == '/' :: p[..i];
    assert forall a :: IsAncestor(a, p) ==> a in r by {
      forall a | IsAncestor(a, p)
        ensures a in r
      {
        var i := |a|;
        assert p[..i] == a;
      }
    }
    r
  }

  lemma AncestorOfValidIsValid(a: Path, p: Path)
    requires ValidPath(p) && IsAncestor(a, p)
    ensures ValidPath(a)
  {
    assert !(p[0] == '/' && p[1] == '/');
    assert !(p[|a|] == '/' && p[|a| - 1] == '/');
    assert a[|a| - 1] == p[|a| - 1];
    forall i | 0 <= i < |a| - 1
      ensures !(a[i] == '/' && a[i + 1] == '/') && !DotSegmentAt(a, i)
    {
      assert a[i] == p[i] && a[i + 1] == p[i + 1];
      if i + 2 < |a| {
        assert a[i + 2] == p[i + 2];
      }
      if i + 3 < |a| {
        assert a[i + 3] == p[i + 3];
      }
      assert !DotSegmentAt(p, i);
    }
    forall i | 0 <= i < |a|
      ensures !ForbiddenChar(a[i])
    {
      assert a[i] == p[i];
    }
  }

  lemma AncestorTransitive(a: Path, b: Path, c: Path)
    requires IsAncestor(a, b) && IsAncestor(b, c)
    ensures IsAncestor(a, c)
  {
    assert c[..|a|] == c[..|b|][..|a|];
    assert c[|a|] == c[..|b|][|a|];
  }

  /**
    Appending `/` and a segment to a valid path gives a child path, and a valid one
    exactly when the segment is a node name ZooKeeper accepts.
   */
  lemma ChildPathIsChild(parent: Path, name: string)
    requires ValidPath(parent) && IsSegment(name)
    ensures IsChild(parent, parent + "/" + name)
    ensures (parent + "/" + name)[|parent| + 1..] == name
    ensures ValidPath(parent + "/" + name) <==> IsNodeName(name)
  {
    var p := parent + "/" + name;
    var n := |parent| + 1;
    assert p[..|parent|] == parent;
    assert p[n..] == name;
    if IsNodeName(name) {
      forall i | 0 <= i < |p| - 1
        ensures !(p[i] == '/' && p[i + 1] == '/') && !DotSegmentAt(p, i)
      {
        if i < |parent| - 1 {
          assert p[i] == parent[i] && p[i + 1] == parent[i + 1];
          assert !DotSegmentAt(parent, i);
          if i + 2 < |parent| {
            assert p[i + 2] == parent[i + 2];
          }
          if i + 3 < |parent| {
            assert p[i + 3] == parent[i + 3];
          }
        } else if i == |parent| - 1 {
          assert p[i] == parent[|parent| - 1];
        } else if i == |parent| {
          assert p[i + 1] == name[0];
          if |name| >= 2 {
            assert p[i + 2] == name[1];
          }
          if |name| >= 3 {
            assert p[i + 3] == name[2];
          }
          if |name| == 1 {
            assert name == [name[0]];
          } else if |name| == 2 {
            assert name == [name[0], name[1]];
          }
        } else {
          assert p[i] == name[i - n];
        }
      }
      forall i | 0 <= i < |p|
        ensures !ForbiddenChar(p[i])
      {
        if i < |parent| {
          assert p[i] == parent[i];
        } else if i > |parent| {
          assert p[i] == name[i - n];
        }
      }
    }
    if ValidPath(p) {
      forall i | 0 <= i < |name|
        ensures !ForbiddenChar(name[i])
      {
        assert name[i] == p[n + i];
      }
      assert !DotSegmentAt(p, |parent|);
      assert p[n] == name[0];
      if |name| >= 2 {
        assert p[n + 1] == name[1];
      }
    }
  }

  /** `ChildPathIsChild` for any arguments: the same facts, whenever its conditions hold. */
  lemma ChildPathFacts(parent: Path, name: string)
    ensures ValidPath(parent) && IsSegment(name) ==>
              IsChild(parent, parent + "/" + name) && (ValidPath(parent + "/" + name) <==> IsNodeName(name))
  {
    if ValidPath(parent) && IsSegment(name) {
      ChildPathIsChild(parent, name);
    }
  }

  /** A top-level node `/name` is valid exactly for a name ZooKeeper accepts. */
  lemma TopLevelPath(name: string)
    requires IsSegment(name)
    ensures ValidPath("/" + name) <==> IsNodeName(name)
  {
    var p := "/" + name;
    assert p[1..] == name;
    if IsNodeName(name) {
      forall i | 0 <= i < |p| - 1
        ensures !(p[i] == '/' && p[i + 1] == '/') && !DotSegmentAt(p, i)
      {
        if i == 0 {
          assert p[1] == name[0];
          if |name| == 1 {
            assert name == [name[0]];
          } else {
            assert p[2] == name[1];
            if |name| == 2 {
              assert name == [name[0], name[1]];
            } else {
              assert p[3] == name[2];
            }
          }
        } else {
          assert p[i] == name[i - 1];
        }
      }
      forall i | 0 <= i < |p|
        ensures !ForbiddenChar(p[i])
      {
        if i > 0 {
          assert p[i] == name[i - 1];
        }
      }
    }
    if ValidPath(p) {
      forall i | 0 <= i < |name|
        ensures !ForbiddenChar(name[i])
      {
        assert name[i] == p[i + 1];
      }
      assert !DotSegmentAt(p, 0);
      assert p[1] == name[0];
      if |name| >= 2 {
        assert p[2] == name[1];
      }
    }
  }

  /**
    The namespace is a tree: every node has a valid path and all of its ancestors
    are nodes too.
   */
  predicate WellFormed(t: Tree) {
    forall p :: p in t ==> ValidPath(p) && Ancestors(p) <= t.Keys
  }

  // ---------------------------------------------------------------------------
  // Node operations
  // ---------------------------------------------------------------------------

  /** `p` holding `node`, every missing ancestor added as an empty container. */
  function Insert(t: Tree, p: Path, node: Node): (r: Tree)
    ensures p in r && r[p] == node
    ensures forall a :: IsAncestor(a, p) ==> a in r
    ensures forall q :: q in t && q != p ==> q in r && r[q] == t[q]
    ensures forall q :: q in r && q !in t ==> InSubtree(q, p)
    ensures forall q :: q in r && q !in t && q != p ==> r[q] == Node("", Container)
  {
    t + (map a | a in Ancestors(p) && a !in t :: Node("", Container)) + map[p := node]
  }

  /**
    Some proper ancestor of `p` is an ephemeral node of `t`. ZooKeeper gives
    ephemeral nodes no children, so creating `p` (or a missing parent on the way to
    it) fails.
   */
  predicate UnderEphemeral(t: Tree, p: Path) {
    exists a :: a in t && IsAncestor(a, p) && t[a].mode == Ephemeral
  }

  /** Removing nodes never puts a path below an ephemeral node. */
  lemma FewerNodesNotUnderEphemeral(t: Tree, smaller: Tree, p: Path)
    requires forall q :: q in smaller ==> q in t && smaller[q] == t[q]
    requires !UnderEphemeral(t, p)
    ensures !UnderEphemeral(smaller, p)
  {
    forall a | a in smaller && IsAncestor(a, p)
      ensures smaller[a].mode != Ephemeral
    {
      assert smaller[a] == t[a];
    }
  }

  /**
    `createNode`: create `p` with `data` and `mode`, creating missing parents, and
    return the path. If `p` already exists, is malformed, or lies below an ephemeral
    node, return `null` and change nothing. It never updates an existing node.
   */
  function CreateNode(t: Tree, p: Path, data: string, mode: CreateMode): (r: (Tree, Option<Path>))
    ensures r.1.Some? <==> ValidPath(p) && p !in t && !UnderEphemeral(t, p)
    ensures r.1.Some? ==> r.1.value == p && p in r.0 && r.0[p] == Node(data, mode)
    ensures r.1.Some? ==> forall a :: IsAncestor(a, p) ==> a in r.0
    ensures r.1.None? ==> r.0 == t
    ensures forall q :: q in t ==> q in r.0 && r.0[q] == t[q]
    ensures forall q :: q in r.0 && q !in t ==> InSubtree(q, p)
    ensures forall q :: q in r.0 && q !in t && q != p ==> r.0[q] == Node("", Container)
  {
    if !ValidPath(p) || p in t || UnderEphemeral(t, p) then (t, None)
    else (Insert(t, p, Node(data, mode)), Some(p))
  }

  /**
    `createNodeWithData`: create `p` (and missing parents) or, when it exists,
    overwrite its payload keeping its mode. `null` for a malformed path, and for an
    absent path below an ephemeral node.
   */
  function CreateNodeWithData(t: Tree, p: Path, data: string, mode: CreateMode): (r: (Tree, Option<Path>))
    ensures r.1.Some? <==> ValidPath(p) && (p in t || !UnderEphemeral(t, p))
    ensures r.1.Some? ==> r.1.value == p && p in r.0 && r.0[p].data == data
    ensures r.1.Some? && p !in t ==> r.0[p].mode == mode
    ensures r.1.Some? && p in t ==> r.0[p].mode == t[p].mode
    ensures r.1.None? ==> r.0 == t
    ensures forall q :: q in t && q != p ==> q in r.0 && r.0[q] == t[q]
    ensures forall q :: q in r.0 && q !in t ==> InSubtree(q, p)
    ensures p in t ==> r.0.Keys == t.Keys
  {
    if !ValidPath(p) then (t, None)
    else if p in t then (t[p := Node(data, t[p].mode)], Some(p))
    else if UnderEphemeral(t, p) then (t, None)
    else (Insert(t, p, Node(data, mode)), Some(p))
  }

  /** `checkExists`: whether a node lives at `p`. */
  function CheckExists(t: Tree, p: Path): (r: bool)
    ensures WellFormed(t) ==> (r <==> p in t)
  {
    ValidPath(p) && p in t
  }

  /** `doGetContent`: the payload of `p`, or `""` when there is no such node. */
  function DoGetContent(t: Tree, p: Path): (r: string)
    ensures CheckExists(t, p) ==> r == t[p].data
    ensures !CheckExists(t, p) ==> r == ""
  {
    if ValidPath(p) && p in t then t[p].data else ""
  }

  /**
    `getChildren`: the names of the direct children of `p`; empty when `p` is
    absent. ZooKeeper promises no order, so the names form a set.
   */
  function GetChildren(t: Tree, p: Path): (r: set<string>)
    ensures forall c :: c in r <==> CheckExists(t, p) && c != "" && '/' !in c && p + "/" + c in t
  {
    if !ValidPath(p) || p !in t then {}
    else
      var r := set q | q in t && IsChild(p, q) :: q[|p| + 1..];
      assert forall c :: c != "" && '/' !in c && p + "/" + c in t ==> c in r by {
        forall c | c != "" && '/' !in c && p + "/" + c in t
          ensures c in r
        {
          var q := p + "/" + c;
          assert q[..|p|] == p && q[|p|] == '/' && q[|p| + 1..] == c;
          assert IsChild(p, q);
        }
      }
      assert forall c :: c in r ==> c != "" && '/' !in c && p + "/" + c in t by {
        forall c | c in r
          ensures c != "" && '/' !in c && p + "/" + c in t
        {
          var q :| q in t && IsChild(p, q) && q[|p| + 1..] == c;
          assert q == q[..|p|] + "/" + q[|p| + 1..];
        }
      }
      r
  }

  /**
    `delete` with `deletingChildrenIfNeeded`: remove `p` and everything below it
    and answer true; answer false and change nothing when `p` is absent.
   */
  function Delete(t: Tree, p: Path): (r: (Tree, bool))
    ensures r.1 <==> CheckExists(t, p)
    ensures !r.1 ==> r.0 == t
    ensures forall q :: q in r.0 <==> q in t && !(r.1 && InSubtree(p, q))
    ensures forall q :: q in r.0 ==> r.0[q] == t[q]
  {
    if !ValidPath(p) || p !in t then (t, false)
    else (map q | q in t && !InSubtree(p, q) :: t[q], true)
  }

  // ---------------------------------------------------------------------------
  // Laws of the store
  // ---------------------------------------------------------------------------

  /** `createNode` keeps the namespace a tree. */
  lemma CreateNodePreservesWellFormed(t: Tree, p: Path, data: string, mode: CreateMode)
    requires WellFormed(t)
    ensures WellFormed(CreateNode(t, p, data, mode).0)
  {
    var r := CreateNode(t, p, data, mode);
    if r.1.Some? {
      InsertPreservesWellFormed(t, p, Node(data, mode));
    }
  }

  /** `createNodeWithData` keeps the namespace a tree. */
  lemma CreateNodeWithDataPreservesWellFormed(t: Tree, p: Path, data: string, mode: CreateMode)
    requires WellFormed(t)
    ensures WellFormed(CreateNodeWithData(t, p, data, mode).0)
  {
    if ValidPath(p) && p !in t && !UnderEphemeral(t, p) {
      InsertPreservesWellFormed(t, p, Node(data, mode));
    }
  }

  lemma InsertPreservesWellFormed(t: Tree, p: Path, node: Node)
    requires WellFormed(t) && ValidPath(p)
    ensures WellFormed(Insert(t, p, node))
  {
    var r := Insert(t, p, node);
    forall q | q in r
      ensures ValidPath(q) && Ancestors(q) <= r.Keys
    {
      if q in t {
      } else if q == p {
      } else {
        assert IsAncestor(q, p);
        AncestorOfValidIsValid(q, p);
        forall a | a in Ancestors(q)
          ensures a in r
        {
          AncestorTransitive(a, q, p);
        }
      }
    }
  }

  /** `delete` keeps the namespace a tree. */
  lemma DeletePreservesWellFormed(t: Tree, p: Path)
    requires WellFormed(t)
    ensures WellFormed(Delete(t, p).0)
  {
    var r := Delete(t, p);
    forall a, q | IsAncestor(a, q) && InSubtree(p, a)
      ensures InSubtree(p, q)
    {
      if a != p {
        AncestorTransitive(p, a, q);
      }
    }
    if r.1 {
      forall q | q in r.0
        ensures Ancestors(q) <= r.0.Keys
      {
        assert Ancestors(q) <= t.Keys;
      }
    }
  }

  /** On an existing node `createNode` fails and leaves the whole store as it was. */
  lemma CreateNodeNeverUpdates(t: Tree, p: Path, data: string, mode: CreateMode)
    requires p in t
    ensures CreateNode(t, p, data, mode) == (t, None)
  {
  }

  /**
    After `createNodeWithData`, reading the node gives the new payload, unless the
    node was absent below an ephemeral node, when the read is unchanged.
   */
  lemma CreateNodeWithDataThenRead(t: Tree, p: Path, data: string, mode: CreateMode)
    requires ValidPath(p)
    ensures DoGetContent(CreateNodeWithData(t, p, data, mode).0, p)
         == if p in t || !UnderEphemeral(t, p) then data else DoGetContent(t, p)
  {
  }

  /**
    After `createNode` of an absent child, the child is listed among its parent's
    children exactly when the creation was allowed: a node name ZooKeeper accepts
    and no ephemeral node above it.
   */
  lemma CreatedNodeIsChild(t: Tree, parent: Path, name: string, data: string, mode: CreateMode)
    requires ValidPath(parent) && IsSegment(name)
    requires parent + "/" + name !in t
    ensures name in GetChildren(CreateNode(t, parent + "/" + name, data, mode).0, parent)
        <==> IsNodeName(name) && !UnderEphemeral(t, parent + "/" + name)
  {
    ChildPathIsChild(parent, name);
  }

  /**
    Deleting a node just created under existing parents restores the store: the
    create added exactly that one node. When the parent chain holds an ephemeral
    node the create fails and the delete finds nothing.
   */
  lemma DeleteUndoesCreateNode(t: Tree, p: Path, data: string, mode: CreateMode)
    requires WellFormed(t) && ValidPath(p) && p !in t
    requires forall a :: IsAncestor(a, p) ==> a in t
    ensures Delete(CreateNode(t, p, data, mode).0, p) == (t, !UnderEphemeral(t, p))
  {
    if UnderEphemeral(t, p) {
      return;
    }
    var c := CreateNode(t, p, data, mode).0;
    var d := Delete(c, p).0;
    forall q | q in t
      ensures !InSubtree(p, q)
    {
      assert Ancestors(q) <= t.Keys;
    }
    forall q | q in c && q !in t
      ensures q == p
    {
      assert InSubtree(q, p);
    }
    assert d.Keys == t.Keys;
    forall q | q in t
      ensures d[q] == t[q]
    {
      assert c[q] == t[q];
    }
    assert d == t;
  }

  // ---------------------------------------------------------------------------
  // Creating a batch of nodes
  // ---------------------------------------------------------------------------

  /** No path of `paths` lies strictly below `p`. */
  predicate NoDescendantIn(paths: set<Path>, p: Path) {
    forall x :: x in paths ==> !IsAncestor(p, x)
  }

  /** No path of `paths` lies strictly above `p`. */
  predicate NoAncestorIn(paths: set<Path>, p: Path) {
    forall x :: x in paths ==> !IsAncestor(x, p)
  }

  /**
    A path of a batch that `createNode` creates whatever the order of the batch: it
    is valid, no ephemeral node of `t` lies above it, and when the batch makes
    ephemeral nodes, every batch path above it is already present in `t` (otherwise
    that path, created first, would be an ephemeral parent).
   */
  predicate SafeInBatch(t: Tree, paths: set<Path>, mode: CreateMode, p: Path) {
    && ValidPath(p)
    && !UnderEphemeral(t, p)
    && (mode == Ephemeral ==> forall x :: x in paths && IsAncestor(x, p) ==> x in t)
  }

  /**
    `createNode(p, data, mode)` for every `p` of `paths`, one after another in an
    unspecified order (the order of a Java collection walk; a fixed order, such as
    the ascending walk of a `TreeSet`, is `CreateEach`). Whatever the order,
    every path that is safe in the batch ends up present, nothing already present
    changes, nothing new appears below an ephemeral node, and a created path with no
    other path of the batch below it holds exactly `data` and `mode`.
   */
  method CreateAll(t: Tree, paths: set<Path>, data: string, mode: CreateMode) returns (t': Tree)
    ensures forall p :: p in paths && SafeInBatch(t, paths, mode, p) ==> p in t'
    ensures forall q :: q in t ==> q in t' && t'[q] == t[q]
    ensures forall q :: q in t' && q !in t ==> exists p :: p in paths && InSubtree(q, p)
    ensures forall q :: q in t' && q !in t ==> !UnderEphemeral(t, q)
    ensures forall p :: p in paths && p in t' && p !in t && NoDescendantIn(paths, p) ==> t'[p] == Node(data, mode)
    ensures forall q :: q in t' && q !in t && q !in paths ==> t'[q] == Node("", Container)
    ensures WellFormed(t) ==> WellFormed(t')
  {
    t' := t;
    var todo := paths;
    while todo != {}
      invariant todo <= paths
      invariant forall p :: p in paths - todo && SafeInBatch(t, paths, mode, p) ==> p in t'
      invariant forall q :: q in t ==> q in t' && t'[q] == t[q]
      invariant forall q :: q in t' && q !in t ==> exists p :: p in paths - todo && InSubtree(q, p)
      invariant forall q :: q in t' && q !in t ==> !UnderEphemeral(t, q)
      invariant forall p :: p in paths && p in t' && p !in t && NoDescendantIn(paths, p) ==> t'[p] == Node(data, mode)
      invariant forall q :: q in t' && q !in t && q !in paths ==> t'[q] == Node("", Container)
      invariant forall q :: q in t' && q !in t ==> t'[q] == Node("", Container) || t'[q] == Node(data, mode)
      invariant WellFormed(t) ==> WellFormed(t')
      decreases todo
    {
      var x :| x in todo;
      var before := t';
      if WellFormed(t) {
        CreateNodePreservesWellFormed(before, x, data, mode);
      }
      t' := CreateNode(before, x, data, mode).0;
      StepCreatesSafePaths(t, before, paths, todo, x, data, mode);
      StepAddsOnlyBelowBatch(t, before, paths, todo, x, data, mode);
      StepAddsBatchContents(t, before, paths, x, data, mode);
      todo := todo - {x};
    }
  }

  /** A step of `CreateAll` keeps every safe path handled so far, and adds the one it handles. */
  lemma StepCreatesSafePaths(t: Tree, before: Tree, paths: set<Path>, todo: set<Path>, x: Path,
                             data: string, mode: CreateMode)
    requires x in todo && todo <= paths
    requires forall p :: p in paths - todo && SafeInBatch(t, paths, mode, p) ==> p in before
    requires forall q :: q in t ==> q in before && before[q] == t[q]
    requires forall q :: q in before && q !in t && q !in paths ==> before[q] == Node("", Container)
    requires forall q :: q in before && q !in t ==> before[q] == Node("", Container) || before[q] == Node(data, mode)
    ensures var after := CreateNode(before, x, data, mode).0;
      forall p :: p in paths - (todo - {x}) && SafeInBatch(t, paths, mode, p) ==> p in after
  {
    if SafeInBatch(t, paths, mode, x) {
      NoEphemeralAddedAbove(t, before, paths, mode, x, data);
    }
  }

  /** A step of `CreateAll` adds nodes only on the way to a batch path, and none below an ephemeral node of `t`. */
  lemma StepAddsOnlyBelowBatch(t: Tree, before: Tree, paths: set<Path>, todo: set<Path>, x: Path,
                               data: string, mode: CreateMode)
    requires x in todo && todo <= paths
    requires forall q :: q in t ==> q in before && before[q] == t[q]
    requires forall q :: q in before && q !in t ==> exists p :: p in paths - todo && InSubtree(q, p)
    requires forall q :: q in before && q !in t ==> !UnderEphemeral(t, q)
    ensures var after := CreateNode(before, x, data, mode).0;
      forall q :: q in after && q !in t ==>
        (exists p :: p in paths - (todo - {x}) && InSubtree(q, p)) && !UnderEphemeral(t, q)
  {
    var after := CreateNode(before, x, data, mode).0;
    forall q | q in after && q !in t
      ensures (exists p :: p in paths - (todo - {x}) && InSubtree(q, p)) && !UnderEphemeral(t, q)
    {
      if q !in before {
        assert InSubtree(q, x);
        forall a | a in t && IsAncestor(a, q)
          ensures t[a].mode != Ephemeral
        {
          if q != x {
            AncestorTransitive(a, q, x);
          }
          assert before[a] == t[a];
        }
      }
    }
  }

  /** A step of `CreateAll` writes `data` and `mode` only to the batch path it handles; other new nodes are containers. */
  lemma StepAddsBatchContents(t: Tree, before: Tree, paths: set<Path>, x: Path, data: string, mode: CreateMode)
    requires x in paths
    requires forall q :: q in t ==> q in before && before[q] == t[q]
    requires forall p :: p in paths && p in before && p !in t && NoDescendantIn(paths, p) ==> before[p] == Node(data, mode)
    requires forall q :: q in before && q !in t && q !in paths ==> before[q] == Node("", Container)
    requires forall q :: q in before && q !in t ==> before[q] == Node("", Container) || before[q] == Node(data, mode)
    ensures var after := CreateNode(before, x, data, mode).0;
      && (forall p :: p in paths && p in after && p !in t && NoDescendantIn(paths, p) ==> after[p] == Node(data, mode))
      && (forall q :: q in after && q !in t && q !in paths ==> after[q] == Node("", Container))
      && (forall q :: q in after && q !in t ==> after[q] == Node("", Container) || after[q] == Node(data, mode))
  {
  }

  /**
    One step of `CreateAll`: a path safe in the batch finds no ephemeral node above
    it in the partly built store, because every node the batch added is an empty
    container or a batch path holding `data` and `mode`.
   */
  lemma NoEphemeralAddedAbove(t: Tree, before: Tree, paths: set<Path>, mode: CreateMode, x: Path, data: string)
    requires forall q :: q in t ==> q in before && before[q] == t[q]
    requires forall q :: q in before && q !in t && q !in paths ==> before[q] == Node("", Container)
    requires forall q :: q in before && q !in t ==> before[q] == Node("", Container) || before[q] == Node(data, mode)
    requires x in paths && SafeInBatch(t, paths, mode, x)
    ensures !UnderEphemeral(before, x)
  {
    forall a | a in before && IsAncestor(a, x)
      ensures before[a].mode != Ephemeral
    {
      if a in t {
        assert before[a] == t[a];
      }
    }
  }

  /** Being in a subtree is transitive. */
  lemma InSubtreeTransitive(a: Path, b: Path, q: Path)
    requires InSubtree(a, b) && InSubtree(b, q)
    ensures InSubtree(a, q)
  {
    if a != b && b != q {
      AncestorTransitive(a, b, q);
    }
  }

  /** `createNode(p, data, mode)` for every `p` of `ps`, one after another in the order of `ps`. */
  function CreateEach(t: Tree, ps: seq<Path>, data: string, mode: CreateMode): (r: Tree)
    ensures forall q :: q in t ==> q in r && r[q] == t[q]
    ensures forall q :: q in r && q !in t ==> exists i :: 0 <= i < |ps| && InSubtree(q, ps[i])
    decreases |ps|
  {
    if |ps| == 0 then t
    else
      var next := CreateNode(t, ps[0], data, mode).0;
      var r := CreateEach(next, ps[1..], data, mode);
      assert forall q :: q in r && q !in t ==> exists i :: 0 <= i < |ps| && InSubtree(q, ps[i]) by {
        forall q | q in r && q !in t
          ensures exists i :: 0 <= i < |ps| && InSubtree(q, ps[i])
        {
          if q in next {
            assert InSubtree(q, ps[0]);
          } else {
            var i :| 0 <= i < |ps[1..]| && InSubtree(q, ps[1..][i]);
            assert InSubtree(q, ps[i + 1]);
          }
        }
      }
      r
  }

  /**
    `x` can no longer get anything below it: it is an ephemeral node, it lies below
    one, or it is malformed (and so is every path below it).
   */
  predicate Sealed(t: Tree, x: Path) {
    (x in t && t[x].mode == Ephemeral) || UnderEphemeral(t, x) || !ValidPath(x)
  }

  /** Every path below a sealed path is malformed or lies below an ephemeral node. */
  lemma SealedBlocksBelow(t: Tree, x: Path, p: Path)
    requires Sealed(t, x) && IsAncestor(x, p)
    ensures UnderEphemeral(t, p) || !ValidPath(p)
  {
    if ValidPath(p) {
      AncestorOfValidIsValid(x, p);
      if x in t && t[x].mode == Ephemeral {
        assert UnderEphemeral(t, p);
      } else {
        var e :| e in t && IsAncestor(e, x) && t[e].mode == Ephemeral;
        AncestorTransitive(e, x, p);
        assert UnderEphemeral(t, p);
      }
    }
  }

  /** A `createNode` adds nothing below a sealed path, and the path stays sealed. */
  lemma CreateNodeKeepsSealed(t: Tree, x: Path, p: Path, data: string, mode: CreateMode)
    requires Sealed(t, x)
    ensures forall q :: IsAncestor(x, q) && q !in t ==> q !in CreateNode(t, p, data, mode).0
    ensures Sealed(CreateNode(t, p, data, mode).0, x)
  {
    var r := CreateNode(t, p, data, mode).0;
    forall q | IsAncestor(x, q) && q !in t
      ensures q !in r
    {
      if q in r {
        assert InSubtree(q, p);
        if q != p {
          AncestorTransitive(x, q, p);
        }
        SealedBlocksBelow(t, x, p);
        assert false;
      }
    }
    if UnderEphemeral(t, x) {
      var e :| e in t && IsAncestor(e, x) && t[e].mode == Ephemeral;
      assert e in r && r[e] == t[e];
    }
  }

  /** Once a path is sealed, no later `createNode` of a walk adds anything below it. */
  lemma {:induction false} WalkKeepsSealed(t: Tree, x: Path, ps: seq<Path>, data: string, mode: CreateMode)
    requires Sealed(t, x)
    ensures forall q :: IsAncestor(x, q) && q !in t ==> q !in CreateEach(t, ps, data, mode)
    decreases |ps|
  {
    if |ps| > 0 {
      var next := CreateNode(t, ps[0], data, mode).0;
      CreateNodeKeepsSealed(t, x, ps[0], data, mode);
      WalkKeepsSealed(next, x, ps[1..], data, mode);
    }
  }

  /**
    A walk of ephemeral creations in which no path comes after a path at or below it
    never creates anything below a path of the walk that was absent at the start:
    that path is either created first, as an ephemeral node that takes no children,
    or refused, because it is malformed or already lies below an ephemeral node.
   */
  lemma {:induction false} EphemeralWalkCreatesNothingBelow(t: Tree, ps: seq<Path>, data: string, i: nat)
    requires i < |ps| && ps[i] !in t
    requires forall j :: 0 <= j < i ==> !InSubtree(ps[i], ps[j])
    ensures forall q :: IsAncestor(ps[i], q) && q !in t ==> q !in CreateEach(t, ps, data, Ephemeral)
    decreases i
  {
    var x := ps[i];
    var next := CreateNode(t, ps[0], data, Ephemeral).0;
    if i == 0 {
      assert Sealed(next, x);
      assert forall q :: IsAncestor(x, q) && q !in t ==> q !in next;
      WalkKeepsSealed(next, x, ps[1..], data, Ephemeral);
    } else {
      assert forall q :: InSubtree(x, q) && q !in t ==> q !in next by {
        forall q | InSubtree(x, q) && q !in t && q in next
          ensures false
        {
          InSubtreeTransitive(x, q, ps[0]);
        }
      }
      assert ps[1..][i - 1] == x;
      forall j | 0 <= j < i - 1
        ensures !InSubtree(ps[1..][i - 1], ps[1..][j])
      {
        assert ps[1..][j] == ps[j + 1];
      }
      EphemeralWalkCreatesNothingBelow(next, ps[1..], data, i - 1);
    }
  }

  /** `q` lies at or below some path of `paths` that `checkExists` finds in `t`. */
  predicate DeletedBy(t: Tree, paths: set<Path>, q: Path) {
    exists p :: p in paths && CheckExists(t, p) && InSubtree(p, q)
  }

  /**
    `delete(p)` for every `p` of `paths`, in an unspecified order. Whatever the
    order, exactly the subtrees of the paths present at the start disappear, and
    none of the paths is found afterwards.
   */
  method DeleteAll(t: Tree, paths: set<Path>) returns (t': Tree)
    ensures forall q :: q in t' <==> q in t && !DeletedBy(t, paths, q)
    ensures forall q :: q in t' ==> t'[q] == t[q]
    ensures forall p :: p in paths ==> !CheckExists(t', p)
    ensures WellFormed(t) ==> WellFormed(t')
  {
    t' := t;
    var todo := paths;
    while todo != {}
      invariant todo <= paths
      invariant forall q :: q in t' <==> q in t && !DeletedBy(t, paths - todo, q)
      invariant forall q :: q in t' ==> t'[q] == t[q]
      invariant WellFormed(t) ==> WellFormed(t')
      decreases todo
    {
      var p :| p in todo;
      var before := t';
      if WellFormed(t) {
        DeletePreservesWellFormed(before, p);
      }
      t' := Delete(before, p).0;
      forall q
        ensures q in t' <==> q in t && !DeletedBy(t, paths - (todo - {p}), q)
      {
        if q in t && CheckExists(t, p) && InSubtree(p, q) && !CheckExists(before, p) {
          var x :| x in paths - todo && CheckExists(t, x) && InSubtree(x, p);
          InSubtreeTransitive(x, p, q);
        }
        if DeletedBy(t, paths - (todo - {p}), q) && !DeletedBy(t, paths - todo, q) {
          assert CheckExists(t, p) && InSubtree(p, q);
        }
      }
      todo := todo - {p};
    }
    forall p | p in paths
      ensures !CheckExists(t', p)
    {
      if CheckExists(t', p) {
        assert DeletedBy(t, paths, p);
      }
    }
  }

  // ---------------------------------------------------------------------------
  // Listener bookkeeping (addListener / removeListener)
  // ---------------------------------------------------------------------------

  /** Identity of a `CuratorListener` (compared by value in the source). */
  type ListenerId = nat

  /** A started `CuratorCache` on `path` delivering events to `listener`. */
  datatype Cache = Cache(path: Path, listener: ListenerId)

  /**
    `curatorCacheMap` (listener to cache id) and the caches that are started and
    not yet closed, by id; `nextCache` numbers the caches as they are built.
   */
  datatype Watches = Watches(cacheOf: map<ListenerId, nat>, open: map<nat, Cache>, nextCache: nat)

  /** Every id handed out is below `nextCache`. */
  predicate FreshIds(w: Watches) {
    (forall l :: l in w.cacheOf ==> w.cacheOf[l] < w.nextCache)
    && (forall c :: c in w.open ==> c < w.nextCache)
  }

  /** Every started cache is recorded in `curatorCacheMap`, so `removeListener` can close it. */
  predicate NoOrphanCache(w: Watches) {
    w.open.Keys <= w.cacheOf.Values
  }

  const NoWatches := Watches(map[], map[], 0)

  /**
    `addListener` as written: build and start a new cache for `path` and record it
    with `putIfAbsent`, so a listener already present keeps its first cache.
   */
  function AddListener(w: Watches, path: Path, l: ListenerId): (r: Watches)
    ensures l in w.cacheOf ==> r.cacheOf == w.cacheOf
    ensures l !in w.cacheOf ==> r.cacheOf == w.cacheOf[l := w.nextCache]
    ensures FreshIds(w) ==> w.nextCache !in w.open && r.open == w.open[w.nextCache := Cache(path, l)]
    ensures FreshIds(w) ==> FreshIds(r)
  {
    Watches(
      if l in w.cacheOf then w.cacheOf else w.cacheOf[l := w.nextCache],
      w.open[w.nextCache := Cache(path, l)],
      w.nextCache + 1)
  }

  /**
    `removeListener`: an unknown listener is a no-op; a known one has its recorded
    cache closed and exactly its own map entry removed.
   */
  function RemoveListener(w: Watches, l: ListenerId): (r: Watches)
    ensures l !in w.cacheOf ==> r == w
    ensures l in w.cacheOf ==> r.cacheOf == w.cacheOf - {l}
    ensures l in w.cacheOf ==> r.open.Keys == w.open.Keys - {w.cacheOf[l]}
    ensures forall c :: c in r.open ==> c in w.open && r.open[c] == w.open[c]
    ensures FreshIds(w) ==> FreshIds(r)
  {
    if l !in w.cacheOf then w
    else Watches(w.cacheOf - {l}, w.open - {w.cacheOf[l]}, w.nextCache)
  }

  /**
    Adding the same listener twice and then removing it leaves a started cache
    that still feeds the listener and that no `removeListener` call can reach.
   */
  lemma AddListenerTwiceLeaksCache(path: Path, l: ListenerId)
    ensures var w := RemoveListener(AddListener(AddListener(NoWatches, path, l), path, l), l);
      && w.open == map[1 := Cache(path, l)]
      && w.cacheOf == map[]
      && !NoOrphanCache(w)
  {
    var w1 := AddListener(NoWatches, path, l);
    var w2 := AddListener(w1, path, l);
    assert w2.cacheOf == map[l := 0];
    var w := RemoveListener(w2, l);
    assert w.open.Keys == {1};
    assert 1 !in w.cacheOf.Values;
  }

  /**
    `addListener` as evidently intended: a listener that is already registered
    keeps its cache and no second cache is started.
   */
  function AddListenerOnce(w: Watches, path: Path, l: ListenerId): (r: Watches)
    ensures l in w.cacheOf ==> r == w
    ensures l !in w.cacheOf ==> r.cacheOf == w.cacheOf[l := w.nextCache]
    ensures l !in w.cacheOf ==> r.open == w.open[w.nextCache := Cache(path, l)]
  {
    if l in w.cacheOf then w else AddListener(w, path, l)
  }

  /**
    The bookkeeping `removeListener` relies on: ids are fresh, every started cache is
    recorded, and each recorded cache is open and feeds the listener it is recorded
    for.
   */
  predicate Consistent(w: Watches) {
    && FreshIds(w)
    && NoOrphanCache(w)
    && forall x :: x in w.cacheOf ==> w.cacheOf[x] in w.open && w.open[w.cacheOf[x]].listener == x
  }

  /** The corrected `addListener` keeps the bookkeeping consistent. */
  lemma AddListenerOnceKeepsConsistent(w: Watches, path: Path, l: ListenerId)
    requires Consistent(w)
    ensures Consistent(AddListenerOnce(w, path, l))
  {
    var a := AddListenerOnce(w, path, l);
    forall c | c in a.open
      ensures c in a.cacheOf.Values
    {
      if c in w.open {
        var x :| x in w.cacheOf && w.cacheOf[x] == c;
        assert a.cacheOf[x] == c;
      } else {
        assert a.cacheOf[l] == c;
      }
    }
  }

  /**
    `removeListener` keeps the bookkeeping consistent, and afterwards no open cache
    feeds the removed listener.
   */
  lemma RemoveListenerKeepsConsistent(w: Watches, m: ListenerId)
    requires Consistent(w)
    ensures Consistent(RemoveListener(w, m))
    ensures forall c :: c in RemoveListener(w, m).open ==> RemoveListener(w, m).open[c].listener != m
  {
    var r := RemoveListener(w, m);
    forall c | c in r.open
      ensures c in r.cacheOf.Values && r.open[c].listener != m
    {
      var x :| x in w.cacheOf && w.cacheOf[x] == c;
      if m in w.cacheOf {
        assert x != m;
      }
      assert r.cacheOf[x] == c;
    }
  }

  /** A call of `addListener` or `removeListener`. */
  datatype ListenerCall = Add(path: Path, listener: ListenerId) | Remove(listener: ListenerId)

  /** A run of calls with the corrected `addListener`, in order. */
  function RunCorrected(w: Watches, calls: seq<ListenerCall>): Watches
    decreases |calls|
  {
    if |calls| == 0 then w
    else
      var next := match calls[0]
        case Add(path, l) => AddListenerOnce(w, path, l)
        case Remove(l) => RemoveListener(w, l);
      RunCorrected(next, calls[1..])
  }

  /**
    With the corrected `addListener`, every started cache stays recorded in
    `curatorCacheMap`, so `removeListener` can reach it, whatever mix of adds and
    removes happens; a removed listener is left with no open cache until it is
    added again.
   */
  lemma {:induction false} AddListenerOnceKeepsCachesReachable(w: Watches, calls: seq<ListenerCall>)
    requires Consistent(w)
    ensures Consistent(RunCorrected(w, calls)) && NoOrphanCache(RunCorrected(w, calls))
    ensures |calls| > 0 && calls[|calls| - 1].Remove? ==>
              forall c :: c in RunCorrected(w, calls).open ==>
                RunCorrected(w, calls).open[c].listener != calls[|calls| - 1].listener
    decreases |calls|
  {
    if |calls| > 0 {
      var next := match calls[0]
        case Add(path, l) => AddListenerOnce(w, path, l)
        case Remove(l) => RemoveListener(w, l);
      match calls[0] {
        case Add(path, l) => AddListenerOnceKeepsConsistent(w, path, l);
        case Remove(l) => RemoveListenerKeepsConsistent(w, l);
      }
      AddListenerOnceKeepsCachesReachable(next, calls[1..]);
      if |calls| > 1 {
        assert calls[1..][|calls[1..]| - 1] == calls[|calls| - 1];
      }
    }
  }

  /** The empty bookkeeping the client starts with is consistent. */
  lemma NoWatchesIsConsistent()
    ensures Consistent(NoWatches)
  {
  }
}
